=== FILE: README.md ===
# MSS/MCS extraction (`opt::mss`), modelled in Dafny

The extractor takes a pool of soft literals and some unsatisfiable cores already
found among them. It splits the literals into a maximal satisfiable subset (the
MSS, kept as a sequence in commit order) and a minimal correction set (the MCS,
kept as a set). A satisfiability oracle decides each question. The extractor
tries to ask it as rarely as it can:

- **Bucketing.** The cores become buckets. Every literal the current model
  already makes true is committed to the MSS on sight. A synthetic trailing
  bucket collects the pool literals outside every core that the model does not
  make true.
- **Skimming.** Before a bucket is resolved, its literals already in the MCS are
  dropped, its literals the live model makes true move to the MSS, and the rest
  are compacted in place.
- **Core resolution.** The MSS is extended by a chunk of the bucket and the
  oracle is asked about it.
  - Satisfiable: the new model becomes the live model, the bucket is skimmed
    again, and the chunk doubles.
  - Unsatisfiable with a chunk of one: that literal enters the MCS and is removed
    by swap-with-back-and-pop.
  - Unsatisfiable with a larger chunk: the tail of the bucket is resolved first,
    then the chunk, literal by literal.
  - Unknown, or cancellation: the bucket is abandoned.
- **Result.** The pool is overwritten with the MSS only when every bucket
  succeeded.

The model has five modules:

- `Logic`: literals, three-valued models, term validation, small sequence
  predicates.
- `Oracle`: the solver as a class with a call counter and a soundness
  predicate.
- `Skim`: what skimming computes.
- `Buckets`: what bucketing computes.
- `MssExtraction`: the class `Mss`, with the mutable MSS, MCS, live model and
  cancellation flag, and the imperative operations of the source.

**The oracle.** It is modelled by two function fields indexed by the call
number:

- `check` answers the n-th satisfiability question;
- `modelAfter` is the model held after it.

The only thing assumed about them is `Solver.Sound()`: after a satisfiable
answer, the model makes every assumed literal true. Because of the call number,
contracts can say that a path asks the oracle nothing, or exactly which question
it asks first.

**The `is_last` flag.** It is kept as the code computes it (`i + 1 < cores.size()`),
which is true for every bucket except the trailing one. It is named
`moreBucketsFollow` after what it actually holds.

**The shortcut guard.** The shortcut at line 171 is modelled twice:

- `ShortcutAsWritten` is the guard as written.
- `LastLiteralShortcut` is the corrected guard: the same, and only one literal
  is left.

The shortcut's own comment assumes a single remaining literal. See "Findings".

## Model

| member | source | states |
|---|---|---|
| Logic.Min | src/opt/mss.cpp:177 | the chunk actually taken is at most both the requested chunk and the bucket size, and is one of them |
| Oracle.Solver.CheckSat | src/opt/mss.cpp:180 | the answer is the oracle's answer to the current call on exactly these assumptions; the call counter advances by one; the held model changes only on a satisfiable answer, to the model that answer comes with |
| Oracle.Solver.GetModel | src/opt/mss.cpp:184 | the model handed out is the one the solver holds |
| Skim.Kept | src/opt/mss.cpp:100-122 | the survivors of skimming, in bucket order, are never more than the bucket; their meaning is stated by `KeptMembers` |
| Skim.Moved | src/opt/mss.cpp:117-119 | the literals skimming commits to the MSS, in bucket order, are never more than the bucket; their meaning is stated by `MovedMembers` |
| Skim.CompactStep | src/opt/mss.cpp:104-119 | one step of the in-place compaction: a literal that stays is written to the next free slot, which is a no-op when no literal was dropped yet; one that does not stay leaves the buffer as is; it is committed exactly when it is outside the MCS and true |
| Skim.KeptMembers | src/opt/mss.cpp:106-116 | a literal survives skimming if and only if it is in the bucket, outside the MCS, and not true under the model |
| Skim.MovedMembers | src/opt/mss.cpp:106-119 | a literal is committed by skimming if and only if it is in the bucket, outside the MCS, and true under the model |
| Skim.SkimCovers | src/opt/mss.cpp:100-122 | skimming loses no literal: each bucket literal is in the MCS, committed, or kept |
| Skim.MovedKeepsTrue | src/opt/mss.cpp:110-118 | committing the literals skimming moves keeps every MSS literal true under the model skimmed against |
| Skim.SkimSplits | src/opt/mss.cpp:100-122 | the kept and the committed literals together are a sub-multiset of the bucket |
| Skim.KeptInOrder | src/opt/mss.cpp:111-116 | the compaction keeps the survivors in their original relative order |
| Skim.KeptNoDups | src/opt/mss.cpp:100-122 | skimming a bucket without repeated literals leaves none repeated |
| Skim.KeptIdempotent | src/opt/mss.cpp:100-122 | skimming again against the same MCS and model changes nothing |
| Skim.KeptDropsTruePrefix | src/opt/mss.cpp:183-186 | when the model makes the first n literals true, skimming shrinks the bucket by at least n, which is why the recursion after a satisfiable answer terminates |
| Buckets.Flatten | src/opt/mss.cpp:71-73 | the core literals in scan order, core after core; their meaning is stated by `FlattenMembers` |
| Buckets.FirstSeenTrue | src/opt/mss.cpp:71-82 | what the core scan commits; its own contract only bounds the length, and its meaning is stated by `FirstSeenTrueMembers` and `FirstSeenTrueNoDups` |
| Buckets.PoolTrue | src/opt/mss.cpp:84-90 | what the pool scan commits; its own contract only bounds the length, and its meaning is stated by `PoolTrueMembers` |
| Buckets.RestBucket | src/opt/mss.cpp:84-96 | the trailing bucket; its own contract only bounds the length, and its meaning is stated by `RestBucketMembers`, `RestBucketNoDups` and `RestBucketInOrder` |
| Buckets.CoreScanStep | src/opt/mss.cpp:74-80 | one step of the core scan: a literal not seen before is committed exactly when true, and the seen set tracks the scanned literals |
| Buckets.PoolScanStep | src/opt/mss.cpp:85-95 | one step of the pool scan: an unseen true literal is committed, an unseen other literal joins the trailing bucket, a seen literal changes nothing |
| Buckets.FlattenMembers | src/opt/mss.cpp:71-73 | a literal is among the scanned core literals if and only if some core contains it |
| Buckets.FirstSeenTrueMembers | src/opt/mss.cpp:74-80 | the core scan commits exactly the core literals the model makes true |
| Buckets.FirstSeenTrueNoDups | src/opt/mss.cpp:75-76 | the core scan commits each literal at most once, however many cores hold it |
| Buckets.PoolTrueMembers | src/opt/mss.cpp:84-90 | the pool scan commits exactly the pool literals outside the cores that the model makes true |
| Buckets.RestBucketMembers | src/opt/mss.cpp:84-94 | the trailing bucket holds exactly the pool literals outside the cores that the model does not make true |
| Buckets.RestBucketNoDups | src/opt/mss.cpp:91-94 | the trailing bucket holds each literal once, since each is recorded as seen on entry |
| Buckets.RestBucketInOrder | src/opt/mss.cpp:83-94 | the trailing bucket keeps the pool order |
| Buckets.BucketsShape | src/opt/mss.cpp:64-97 | the buckets are the cores unchanged followed by one trailing bucket, and that bucket is characterised literal by literal, has no repetitions, and keeps the pool order |
| Buckets.CommittedShape | src/opt/mss.cpp:70-96 | bucketing only appends to the MSS, and it appends exactly the core and pool literals the model makes true |
| MssExtraction.ShortcutAsWritten | src/opt/mss.cpp:171 | the guard as written: chunk 1, more buckets follow, and no literal of this bucket's lineage in the MCS yet; the number of literals left is not consulted |
| MssExtraction.LastLiteralShortcut | src/opt/mss.cpp:171-175 | the corrected guard: the guard as written, and exactly one literal left |
| MssExtraction.ShortcutMcs | src/opt/mss.cpp:174 | a literal is in the MCS after the shortcut if and only if it was in the MCS before or is the first literal of the bucket |
| MssExtraction.ShortcutAsWrittenLeavesLiteral | src/opt/mss.cpp:171-175 | the guard as written accepts a two-literal bucket whose second literal is in neither set; the shortcut then returns l_true with the MSS unchanged and that literal still outside the MCS, so it stays classified neither way; the corrected guard refuses that bucket |
| MssExtraction.LastLiteralShortcutClassifiesAll | src/opt/mss.cpp:171-175 | under the corrected guard the shortcut puts every literal left in the bucket into the MCS |
| MssExtraction.RemoveFirst | src/opt/mss.cpp:190-192 | swap-with-back-and-pop shortens the bucket by one and removes exactly one occurrence of its first literal |
| MssExtraction.RemoveFirstMembers | src/opt/mss.cpp:190-192 | after swap-with-back-and-pop every other literal of the bucket is still there, and nothing new is |
| MssExtraction.RemoveFirstKeepsUnclassified | src/opt/mss.cpp:188-192 | moving the first literal of an unclassified, duplicate-free bucket into the MCS leaves the rest unclassified and the MSS and MCS disjoint |
| MssExtraction.SplitKeepsUnclassified | src/opt/mss.cpp:195-197 | both halves of an unclassified bucket are unclassified and share no literal |
| MssExtraction.SkimKeepsUnclassified | src/opt/mss.cpp:100-122 | skimming a duplicate-free bucket against a model that makes the MSS true keeps the survivors unclassified and the MSS and MCS disjoint |
| MssExtraction.SkimAfterSat | src/opt/mss.cpp:183-186 | after a satisfiable answer, skimming against the new model strictly shrinks the bucket, loses and invents no literal, keeps the MSS true, and keeps an unclassified bucket unclassified |
| MssExtraction.BucketsCoverPool | src/opt/mss.cpp:137-154 | once every bucket is classified, so is every pool literal and every core literal |
| MssExtraction.ClassifiedFromPool | src/opt/mss.cpp:125-154 | everything the extraction puts into the MSS or the MCS is a pool literal or a core literal |
| MssExtraction.Mss.constructor | src/opt/mss.cpp:30 | a fresh extractor has an empty MSS and MCS, is not cancelled, and holds a model that evaluates nothing to false |
| MssExtraction.Mss.Initialize | src/opt/mss.cpp:53-98 | throws exactly when a pool literal is not an uninterpreted constant or its negation, with the source's message, before touching the MSS; otherwise returns the cores followed by the trailing bucket and appends to the MSS exactly the core and pool literals the model makes true |
| MssExtraction.Mss.CommitCoreLiterals | src/opt/mss.cpp:71-82 | the scan records exactly the core literals and appends to the MSS the first occurrence of each one the model makes true, in order |
| MssExtraction.Mss.CommitCore | src/opt/mss.cpp:72-81 | scanning one more core extends the recorded literals and the committed sequence as the whole scan would |
| MssExtraction.Mss.CommitPoolLiterals | src/opt/mss.cpp:83-96 | the pool scan returns exactly the trailing bucket and appends to the MSS every occurrence of a true pool literal outside the cores |
| MssExtraction.Mss.UpdateSet | src/opt/mss.cpp:100-122 | the bucket left is exactly the survivors of skimming and the MSS grows by exactly the committed literals, both in order |
| MssExtraction.Mss.CheckChunk | src/opt/mss.cpp:177-181 | the oracle is asked once about the MSS extended by the chunk, and the MSS is restored |
| MssExtraction.Mss.ProcessCore | src/opt/mss.cpp:162-209 | keeps the MSS true under the live model; never returns l_false; the MSS and MCS only grow, and only by literals of the bucket; on l_true every bucket literal is in one of them; an unclassified bucket leaves the MSS and MCS disjoint; an empty bucket, cancellation and the (corrected) shortcut ask the oracle nothing; otherwise the first question is about the MSS plus the first min(sz, size) literals, an unknown answer to it returns l_undef with nothing changed after one call, a satisfiable answer commits every literal of that chunk not already in the MCS to the MSS, and an unsatisfiable answer with chunk 1 puts the first literal into the MCS; every literal it adds to the MCS was refuted by an unsatisfiable answer for a prefix of the final MSS plus that literal, except at most one literal of the bucket (the shortcut's), and that one only when more buckets follow and `has_mcs` was false on entry |
| MssExtraction.Mss.ResolveSat | src/opt/mss.cpp:183-186 | the satisfiable branch commits every literal of the accepted chunk not already in the MCS to the MSS; it then resolves the bucket skimmed against the new model with twice the chunk: the next question is about the MSS plus the skimmed-in literals plus the first min(2·size, left) survivors, and an unknown answer to it returns l_undef after that one call with only the skimmed-in literals committed; at most one literal enters the MCS unrefuted, only when more buckets follow and `has_mcs` was false; every guarantee of core resolution for the bucket is kept |
| MssExtraction.Mss.ResolveUnsatSingle | src/opt/mss.cpp:188-193 | the unsatisfiable branch with chunk 1 puts the first literal into the MCS and sets the flag, so nothing is spared afterwards: every other literal it adds to the MCS was refuted; the rest of the bucket is resolved next with chunk 1: the next question is about the MSS plus the first literal left after swap-with-back-and-pop, and an unknown answer to it returns l_undef after that one call with only the first literal corrected; every guarantee of core resolution is kept |
| MssExtraction.Mss.ResolveUnsatSplit | src/opt/mss.cpp:194-203 | the unsatisfiable branch with a larger chunk asks the oracle at least once unless cancelled; it resolves the suffix from position `size` first with the same chunk, so an unknown answer to the suffix's first question returns l_undef with nothing changed after one call; the suffix is resolved as if no bucket followed, so a literal it corrects is always refuted and the at most one unrefuted literal comes from the first `size` literals; every guarantee of core resolution for the whole bucket is kept |
| MssExtraction.Mss.ExcludeFirst | src/opt/mss.cpp:189-192 | the MCS gains exactly the first literal and the bucket becomes its swap-with-back-and-pop |
| MssExtraction.Mss.CheckInvariant | src/opt/mss.cpp:235-246 | the verdict holds if and only if no MSS literal evaluates to false under the live model |
| MssExtraction.Mss.ResolveBucket | src/opt/mss.cpp:140-145 | one round of the loop keeps the MSS true, never fails outright, grows the MSS and MCS only by literals of the bucket, classifies every bucket literal on success, and keeps the two sets disjoint for a duplicate-free bucket; it spares at most one literal of the bucket from refutation, and none when no bucket follows; every other literal it adds to the MCS was refuted |
| MssExtraction.Mss.ResolveBuckets | src/opt/mss.cpp:139-146 | the loop resolves the buckets in order: on success all of them, every literal of every bucket classified; otherwise it stops at the bucket that did not succeed: every bucket before it is fully classified, and the MSS and MCS grew only by literals of the buckets up to that one; each bucket spares at most one of its own literals from refutation, the last bucket none, and every other literal added to the MCS was refuted |
| MssExtraction.Mss.Run | src/opt/mss.cpp:125-155 | fails exactly on a malformed pool, leaving the MSS and MCS reset and asking the oracle nothing; never returns l_false; whatever the outcome, the MSS and MCS hold only pool and core literals, since both are reset first; every MCS literal was refuted by the oracle for a prefix of the MSS plus that literal, except at most one literal per supplied core, taken from that core; on l_true the pool is replaced by the MSS, the MSS is true under the live model, and every pool and core literal is in the MSS or the MCS, disjointly when the cores hold no repeated literal; otherwise the pool is left as it was |
| MssExtraction.Mss.CheckResult | src/opt/mss.cpp:36-51 | asks first about the MSS alone and fails on an unsatisfiable answer; then asks about the MSS plus each MCS literal in turn, each at most once; fails exactly when one of those is satisfiable; if none is and none is unknown, every MCS literal was tried; the MSS is left unchanged |
| MssExtraction.Mss.CheckEachCorrection | src/opt/mss.cpp:41-50 | the walk over the MCS asks one question per literal tried, stops at the first answer that is not unsatisfiable, and reports failure exactly when that answer is satisfiable |

## Left out

- Display and tracing output (`display`, `display_vec`, `TRACE`, `CTRACE`) is not modelled: it has no effect on the state.
- The solver's internals are not modelled. The oracle answers as a function of the call number and the assumptions, and its only stated property is soundness of the model after a satisfiable answer.
- Evaluation failure (`VERIFY(m_model->eval(...))`) is not modelled: evaluation is total here.
- The local set `lits` in bucketing is filled but never read; it is not modelled.
- `CheckResult` and the invariant check are debug assertions (`SASSERT`). `Run` calls `CheckInvariant` and proves its verdict true. It does not call `CheckResult`, which is modelled as its own method.
- Cancellation is a flag read at each resolution step. Setting it from another thread, and the memory effects of that, are not modelled.
- Maximality of the MSS and minimality of the MCS are not proved, for two reasons. First, they would need the oracle's answers to be mutually consistent and the supplied cores to be unsatisfiable, and neither is assumed. Second, even the corrected shortcut puts a bucket's last literal into the MCS without asking the oracle. That literal can be the only one left because skimming dropped another literal of the core that an earlier bucket had already put into the MCS (`has_mcs` starts false for every bucket, line 141). What is proved instead is that every MCS literal was refuted except at most one per supplied core (`MssExtraction.Mss.ProcessCore`, `MssExtraction.Mss.Run`).
- `MssExtraction.Mss.Run` proves MSS/MCS disjointness only when no core holds a repeated literal. A literal repeated in one core can be committed from one copy and, when the oracle's answers are not mutually consistent, sent to the MCS from the other.
- `MssExtraction.Mss.ProcessCore` uses the corrected shortcut guard, which also requires a single remaining literal, instead of the guard as written at line 171. The guard as written is `MssExtraction.ShortcutAsWritten`; see Findings.
- `MssExtraction.Mss.ResolveSat` does not state which model becomes live: later rounds replace it. It states that the accepted chunk reaches the MSS and the next question asked.
- `MssExtraction.Mss.ResolveUnsatSplit` does not state the first question about the first `size` literals, which are resolved with chunk 1 after the suffix; that question's position depends on how many questions the suffix took. It states the suffix-first order through the first question's unknown answer, and that only the first `size` literals can be spared.
- `MssExtraction.Mss.Initialize` states the buckets and the committed literals literal by literal. The exact committed sequence, with its order and with repeated true pool literals, is stated by `CommitCoreLiterals` and `CommitPoolLiterals`.
- The placeholder model of a fresh extractor (no model yet in the source) evaluates every literal to a non-boolean value. This makes the invariant check pass, as the source's early return does.
- Terms are compared by address in the source; here they are integers compared by value, and the hash sets are Dafny sets. Iteration order over the MCS is left unspecified and recorded by a ghost sequence.

## Findings

| source | as written | input that shows it | evidently intended | confidence | as-written member | corrected member |
|---|---|---|---|---|---|---|
| src/opt/mss.cpp:171 | the no-oracle shortcut fires on `sz == 1 && is_last && !has_mcs` whatever the bucket's size, puts `core[0]` into the MCS and returns l_true | cores = [[a, b]] with a and b not true under the model (and a pool containing them): the first bucket has `is_last` true, so after skimming `process_core(1, [a, b], false, true)` puts a into the MCS and returns l_true, and b ends up in neither the MSS nor the MCS | the shortcut applies only when one literal remains, which is the case its comment argues for | medium, not executed | MssExtraction.ShortcutAsWrittenLeavesLiteral | MssExtraction.LastLiteralShortcutClassifiesAll |

=== FILE: buckets.dfy ===
/** What bucketing computes from the supplied cores, the literal pool and the
    model: the literals committed to the MSS on sight and the synthetic trailing
    bucket of leftover literals. */
module Buckets {
  import opened Logic

  /** The literals of all cores, core after core. */
  function Flatten(cores: seq<seq<Lit>>): (r: seq<Lit>) {
    if cores == [] then [] else Flatten(cores[..|cores| - 1]) + cores[|cores| - 1]
  }

  /** Scanning `xs` left to right, each literal met for the first time that the
      model makes true, in order of first occurrence. */
  function FirstSeenTrue(xs: seq<Lit>, model: Model): (r: seq<Lit>)
    ensures |r| <= |xs|
  {
    if xs == [] then []
    else
      var init, last := xs[..|xs| - 1], xs[|xs| - 1];
      FirstSeenTrue(init, model) + (if last !in init && IsTrue(model, last) then [last] else [])
  }

  /** Every occurrence in the pool `lits` of a literal outside the cores (`coreLits`)
      that the model makes true. */
  function PoolTrue(lits: seq<Lit>, coreLits: seq<Lit>, model: Model): (r: seq<Lit>)
    ensures |r| <= |lits|
  {
    if lits == [] then []
    else
      var last := lits[|lits| - 1];
      PoolTrue(lits[..|lits| - 1], coreLits, model) + (if last !in coreLits && IsTrue(model, last) then [last] else [])
  }

  /** The synthetic trailing bucket: the literals of the pool outside the cores
      that the model does not make true, each once, in pool order. */
  function RestBucket(lits: seq<Lit>, coreLits: seq<Lit>, model: Model): (r: seq<Lit>)
    ensures |r| <= |lits|
  {
    if lits == [] then []
    else
      var init, last := lits[..|lits| - 1], lits[|lits| - 1];
      var rest := RestBucket(init, coreLits, model);
      rest + (if last !in coreLits && last !in rest && !IsTrue(model, last) then [last] else [])
  }

  // One more literal at the end of the scanned sequence: the unfoldings the
  // scanning loops step through.

  lemma FlattenSnoc(cores: seq<seq<Lit>>, core: seq<Lit>)
    ensures Flatten(cores + [core]) == Flatten(cores) + core
  {
    assert (cores + [core])[..|cores|] == cores;
  }

  lemma FirstSeenTrueSnoc(xs: seq<Lit>, x: Lit, model: Model)
    ensures FirstSeenTrue(xs + [x], model) ==
      FirstSeenTrue(xs, model) + (if x !in xs && IsTrue(model, x) then [x] else [])
  {
    assert (xs + [x])[..|xs|] == xs;
  }

  lemma PoolTrueSnoc(lits: seq<Lit>, x: Lit, coreLits: seq<Lit>, model: Model)
    ensures PoolTrue(lits + [x], coreLits, model) ==
      PoolTrue(lits, coreLits, model) + (if x !in coreLits && IsTrue(model, x) then [x] else [])
  {
    assert (lits + [x])[..|lits|] == lits;
  }

  lemma RestBucketSnoc(lits: seq<Lit>, x: Lit, coreLits: seq<Lit>, model: Model)
    ensures RestBucket(lits + [x], coreLits, model) ==
      var rest := RestBucket(lits, coreLits, model);
      rest + (if x !in coreLits && x !in rest && !IsTrue(model, x) then [x] else [])
  {
    assert (lits + [x])[..|lits|] == lits;
  }

  /** One step of the core scan, where `seen` holds the literals scanned so far:
      a literal not seen before is committed when true; otherwise nothing is. */
  lemma CoreScanStep(scanned: seq<Lit>, x: Lit, model: Model, seen: set<Lit>)
    requires forall y :: y in seen <==> y in scanned
    ensures x !in seen && IsTrue(model, x) ==>
      FirstSeenTrue(scanned + [x], model) == FirstSeenTrue(scanned, model) + [x]
    ensures !(x !in seen && IsTrue(model, x)) ==>
      FirstSeenTrue(scanned + [x], model) == FirstSeenTrue(scanned, model)
    ensures forall y :: y in seen + {x} <==> y in scanned + [x]
  {
    FirstSeenTrueSnoc(scanned, x, model);
  }

  /** One step of the pool scan, where `seen` holds the core literals and the
      trailing bucket so far: a literal not seen is committed when true and
      joins the trailing bucket otherwise; a literal seen changes nothing. */
  lemma PoolScanStep(pool: seq<Lit>, x: Lit, coreLits: seq<Lit>, model: Model, seen: set<Lit>)
    requires forall y :: y in seen <==> y in coreLits || y in RestBucket(pool, coreLits, model)
    ensures x !in seen && IsTrue(model, x) ==>
      PoolTrue(pool + [x], coreLits, model) == PoolTrue(pool, coreLits, model) + [x] &&
      RestBucket(pool + [x], coreLits, model) == RestBucket(pool, coreLits, model)
    ensures x !in seen && !IsTrue(model, x) ==>
      PoolTrue(pool + [x], coreLits, model) == PoolTrue(pool, coreLits, model) &&
      RestBucket(pool + [x], coreLits, model) == RestBucket(pool, coreLits, model) + [x]
    ensures x in seen ==>
      PoolTrue(pool + [x], coreLits, model) == PoolTrue(pool, coreLits, model) &&
      RestBucket(pool + [x], coreLits, model) == RestBucket(pool, coreLits, model)
  {
    RestBucketSnoc(pool, x, coreLits, model);
    PoolTrueSnoc(pool, x, coreLits, model);
    RestBucketMembers(pool, coreLits, model, x);
  }

  /** A literal is in the flattened cores exactly when some core contains it. */
  lemma {:induction false} FlattenMembers(cores: seq<seq<Lit>>, x: Lit)
    ensures x in Flatten(cores) <==> exists k :: 0 <= k < |cores| && x in cores[k]
  {
    if cores != [] {
      var init := cores[..|cores| - 1];
      FlattenMembers(init, x);
      if x in Flatten(cores) && x !in cores[|cores| - 1] {
        var k :| 0 <= k < |init| && x in init[k];
        assert cores[k] == init[k];
      }
      if exists k :: 0 <= k < |cores| && x in cores[k] {
        var k :| 0 <= k < |cores| && x in cores[k];
        if k < |init| {
          assert init[k] == cores[k];
        }
      }
    }
  }

  /** The literals committed while scanning the cores are exactly the core literals
      the model makes true. */
  lemma {:induction false} FirstSeenTrueMembers(xs: seq<Lit>, model: Model, x: Lit)
    ensures x in FirstSeenTrue(xs, model) <==> x in xs && IsTrue(model, x)
  {
    if xs != [] {
      var init := xs[..|xs| - 1];
      FirstSeenTrueMembers(init, model, x);
      assert xs == init + [xs[|xs| - 1]];
    }
  }

  /** Scanning the cores commits each literal at most once, however many cores
      contain it. */
  lemma {:induction false} FirstSeenTrueNoDups(xs: seq<Lit>, model: Model)
    ensures NoDups(FirstSeenTrue(xs, model))
  {
    if xs != [] {
      var init, last := xs[..|xs| - 1], xs[|xs| - 1];
      FirstSeenTrueNoDups(init, model);
      if last !in init && IsTrue(model, last) {
        FirstSeenTrueMembers(init, model, last);
      }
    }
  }

  /** The pool literals committed are exactly the pool literals outside the
      cores that the model makes true. */
  lemma {:induction false} PoolTrueMembers(lits: seq<Lit>, coreLits: seq<Lit>, model: Model, x: Lit)
    ensures x in PoolTrue(lits, coreLits, model) <==> x in lits && x !in coreLits && IsTrue(model, x)
  {
    if lits != [] {
      var init := lits[..|lits| - 1];
      PoolTrueMembers(init, coreLits, model, x);
      assert lits == init + [lits[|lits| - 1]];
    }
  }

  /** The trailing bucket holds exactly the pool literals outside the cores that
      the model does not make true. */
  lemma {:induction false} RestBucketMembers(lits: seq<Lit>, coreLits: seq<Lit>, model: Model, x: Lit)
    ensures x in RestBucket(lits, coreLits, model) <==> x in lits && x !in coreLits && !IsTrue(model, x)
  {
    if lits != [] {
      var init := lits[..|lits| - 1];
      RestBucketMembers(init, coreLits, model, x);
      assert lits == init + [lits[|lits| - 1]];
    }
  }

  /** The trailing bucket holds each literal once. */
  lemma {:induction false} RestBucketNoDups(lits: seq<Lit>, coreLits: seq<Lit>, model: Model)
    ensures NoDups(RestBucket(lits, coreLits, model))
  {
    if lits != [] {
      RestBucketNoDups(lits[..|lits| - 1], coreLits, model);
    }
  }

  /** The trailing bucket keeps the pool's order. */
  lemma {:induction false} RestBucketInOrder(lits: seq<Lit>, coreLits: seq<Lit>, model: Model)
    ensures Subseq(RestBucket(lits, coreLits, model), lits)
  {
    if lits != [] {
      var init := lits[..|lits| - 1];
      RestBucketInOrder(init, coreLits, model);
      var r := RestBucket(lits, coreLits, model);
      if |r| > |RestBucket(init, coreLits, model)| {
        assert r[..|r| - 1] == RestBucket(init, coreLits, model);
      } else {
        assert r == RestBucket(init, coreLits, model);
      }
    }
  }

  /** Some supplied core contains `x`. */
  predicate InSomeCore(cores: seq<seq<Lit>>, x: Lit) {
    exists k :: 0 <= k < |cores| && x in cores[k]
  }

  /** The buckets bucketing hands to the extraction loop, literal by literal: the
      supplied cores come first, unchanged, followed by one trailing bucket that
      holds, once each and in pool order, the pool literals outside the cores
      that the model does not make true. */
  lemma BucketsShape(cores: seq<seq<Lit>>, lits: seq<Lit>, model: Model, buckets: seq<seq<Lit>>)
    requires buckets == cores + [RestBucket(lits, Flatten(cores), model)]
    ensures |buckets| == |cores| + 1
    ensures forall k :: 0 <= k < |cores| ==> buckets[k] == cores[k]
    ensures forall x :: x in buckets[|cores|] <==> x in lits && !InSomeCore(cores, x) && !IsTrue(model, x)
    ensures NoDups(buckets[|cores|]) && Subseq(buckets[|cores|], lits)
  {
    RestBucketNoDups(lits, Flatten(cores), model);
    RestBucketInOrder(lits, Flatten(cores), model);
    forall x
      ensures x in buckets[|cores|] <==> x in lits && !InSomeCore(cores, x) && !IsTrue(model, x)
    {
      FlattenMembers(cores, x);
      RestBucketMembers(lits, Flatten(cores), model, x);
    }
  }

  /** What bucketing commits to the MSS, literal by literal: exactly the core and
      pool literals the model makes true, after what the MSS held before. */
  lemma CommittedShape(cores: seq<seq<Lit>>, lits: seq<Lit>, model: Model, base: seq<Lit>, mss: seq<Lit>)
    requires mss == base + FirstSeenTrue(Flatten(cores), model) + PoolTrue(lits, Flatten(cores), model)
    ensures base <= mss
    ensures forall x :: x in mss[|base|..] <==> (InSomeCore(cores, x) || x in lits) && IsTrue(model, x)
  {
    var flat := Flatten(cores);
    assert mss[|base|..] == FirstSeenTrue(flat, model) + PoolTrue(lits, flat, model);
    forall x
      ensures x in mss[|base|..] <==> (InSomeCore(cores, x) || x in lits) && IsTrue(model, x)
    {
      FlattenMembers(cores, x);
      FirstSeenTrueMembers(flat, model, x);
      PoolTrueMembers(lits, flat, model, x);
    }
  }
}

=== FILE: logic.dfy ===
/** The vocabulary the MSS/MCS extractor is written in: literals, the oracle's
    three-valued answers, models and the term predicates used to validate input. */
module Logic {

  /** A soft literal: an opaque handle compared by identity. Integers stand in for
      the term addresses of the solver's expression universe. */
  type Lit = int

  /** The oracle's three-valued answer (l_true, l_false, l_undef). */
  datatype LBool = LTrue | LFalse | LUndef

  /** What evaluating a literal under a model yields: the constant true, the
      constant false, or some other term the model leaves uninterpreted. */
  datatype Val = VTrue | VFalse | VOther

  /** A model, seen only through evaluation. */
  type Model = Lit -> Val

  /** The error value of an operation that can fail. */
  datatype Result<T> = Success(value: T) | Failure(error: string)

  predicate IsTrue(model: Model, l: Lit) {
    model(l) == VTrue
  }

  predicate IsFalse(model: Model, l: Lit) {
    model(l) == VFalse
  }

  /** Every literal of `lits` evaluates to true under `model`. */
  predicate AllTrue(model: Model, lits: seq<Lit>) {
    forall l :: l in lits ==> IsTrue(model, l)
  }

  /** A literal true under a model is not false under it. */
  lemma AllTrueNoneFalse(model: Model, lits: seq<Lit>)
    requires AllTrue(model, lits)
    ensures forall i :: 0 <= i < |lits| ==> !IsFalse(model, lits[i])
  {
    forall i | 0 <= i < |lits| ensures !IsFalse(model, lits[i]) {
      assert lits[i] in lits;
    }
  }

  /** The part of the term universe the extractor consults: recognising a
      negation, taking its argument, and recognising an uninterpreted constant. */
  datatype Terms = Terms(isNot: Lit -> bool, notArg: Lit -> Lit, isUninterpConst: Lit -> bool)

  /** A literal is acceptable when, after stripping at most one negation, it is an
      uninterpreted constant. */
  predicate IsLiteral(terms: Terms, n: Lit) {
    var atom := if terms.isNot(n) then terms.notArg(n) else n;
    terms.isUninterpConst(atom)
  }

  predicate AllLiterals(terms: Terms, lits: seq<Lit>) {
    forall i :: 0 <= i < |lits| ==> IsLiteral(terms, lits[i])
  }

  /** A non-empty set has a member to pick. */
  lemma NonEmptyHasMember(s: set<Lit>)
    requires s != {}
    ensures exists x :: x in s
  {
    if forall x :: x !in s {
      assert false;
    }
  }

  /** No literal occurs twice in `s`. */
  ghost predicate NoDups(s: seq<Lit>) {
    forall x :: multiset(s)[x] <= 1
  }

  /** Appending a literal not yet present keeps a sequence free of repetitions. */
  lemma NoDupsSnoc(s: seq<Lit>, x: Lit)
    requires NoDups(s) && x !in s
    ensures NoDups(s + [x])
  {
    assert multiset(s + [x]) == multiset(s) + multiset{x};
  }

  /** No literal of `mss` is in `mcs`. */
  ghost predicate Disjoint(mss: seq<Lit>, mcs: set<Lit>) {
    forall x :: x in mss ==> x !in mcs
  }

  /** `a` is `b` with some elements left out, the rest kept in their order. */
  ghost predicate Subseq(a: seq<Lit>, b: seq<Lit>)
    decreases |b|
  {
    if a == [] then true
    else if b == [] then false
    else (a[|a| - 1] == b[|b| - 1] && Subseq(a[..|a| - 1], b[..|b| - 1]))
         || Subseq(a, b[..|b| - 1])
  }

  /** Lengths are unbounded here, so the source's `std::min` on unsigned sizes is plain. */
  function Min(a: nat, b: nat): (r: nat)
    ensures r <= a && r <= b && (r == a || r == b)
  {
    if a < b then a else b
  }
}

=== FILE: mss.dfy ===
/** The MSS/MCS extractor: given previously found unsatisfiable cores and a pool
    of soft literals, it splits the literals into a satisfiable sequence `mss`
    and a correction set `mcs`, consulting the oracle as little as it can. */
module MssExtraction {
  import opened Logic
  import opened Oracle
  import opened Skim
  import opened Buckets

  /** The message of the exception bucketing throws for a malformed literal. */
  const InvalidArgumentMessage := "arguments have to be uninterpreted literals"

  /** The guard of the no-oracle shortcut of core resolution, as written: chunk 1,
      more buckets follow, and no literal of this bucket has entered the
      correction set yet. It does not ask how many literals remain. */
  predicate ShortcutAsWritten(sz: nat, core: seq<Lit>, hasMcs: bool, moreBucketsFollow: bool) {
    sz == 1 && moreBucketsFollow && !hasMcs
  }

  /** The guard the model uses: the same, and only one literal remains, so that
      the literal the shortcut puts into the correction set is the whole bucket. */
  predicate LastLiteralShortcut(sz: nat, core: seq<Lit>, hasMcs: bool, moreBucketsFollow: bool) {
    |core| == 1 && ShortcutAsWritten(sz, core, hasMcs, moreBucketsFollow)
  }

  /** The correction set after the shortcut: the first literal of the bucket added. */
  function ShortcutMcs(mcs: set<Lit>, core: seq<Lit>): (r: set<Lit>)
    requires core != []
    ensures forall x :: x in r <==> x in mcs || x == core[0]
  {
    mcs + {core[0]}
  }

  /** The guard as written lets a two-literal bucket through. The shortcut then
      returns l_true with only the first literal added to the correction set and
      the MSS unchanged, so the second literal, classified neither way before,
      is classified neither way after. The corrected guard refuses that bucket. */
  lemma ShortcutAsWrittenLeavesLiteral(a: Lit, b: Lit, mss: seq<Lit>, mcs: set<Lit>)
    requires a != b && b !in mss && b !in mcs
    ensures ShortcutAsWritten(1, [a, b], false, true)
    ensures b !in mss && b !in ShortcutMcs(mcs, [a, b])
    ensures !LastLiteralShortcut(1, [a, b], false, true)
  {
  }

  /** The oracle refuted `x` at one of its calls from the `from`-th up to, not
      including, the `to`-th: it answered unsat for `x` added to a prefix of `mss`. */
  ghost predicate Refuted(check: (nat, seq<Lit>) -> LBool, x: Lit, from: nat, to: nat, mss: seq<Lit>) {
    exists n: nat, j: nat :: from <= n < to && j <= |mss| && check(n, mss[..j] + [x]) == LFalse
  }

  /** A refutation stays one over a wider range of calls and a longer MSS. */
  lemma RefutedWiden(check: (nat, seq<Lit>) -> LBool, x: Lit, from: nat, to: nat, mss: seq<Lit>,
                     from': nat, to': nat, mss': seq<Lit>)
    requires Refuted(check, x, from, to, mss)
    requires from' <= from && to <= to' && mss <= mss'
    ensures Refuted(check, x, from', to', mss')
  {
    var n: nat, j: nat :| from <= n < to && j <= |mss| && check(n, mss[..j] + [x]) == LFalse;
    assert mss'[..j] == mss[..j];
  }

  /** What a later step corrected after refutations from its own first call on was
      refuted from an earlier call on as well. */
  lemma RefutedSince(check: (nat, seq<Lit>) -> LBool, mcsMid: set<Lit>, mcsEnd: set<Lit>, mss: seq<Lit>,
                     from: nat, mid: nat, to: nat, spared: set<Lit>)
    requires from <= mid
    requires forall x :: x in mcsEnd && x !in mcsMid && x !in spared ==> Refuted(check, x, mid, to, mss)
    ensures forall x :: x in mcsEnd && x !in mcsMid && x !in spared ==> Refuted(check, x, from, to, mss)
  {
    forall x | x in mcsEnd && x !in mcsMid && x !in spared
      ensures Refuted(check, x, from, to, mss)
    {
      RefutedWiden(check, x, mid, to, mss, from, to, mss);
    }
  }

  /** The literal the oracle refuted at call `from`, followed by literals refuted
      from the next call on: all of them refuted from call `from` on. */
  lemma RefutedFirstThenRest(check: (nat, seq<Lit>) -> LBool, first: Lit, mcs0: set<Lit>, mcsEnd: set<Lit>,
                             mss0: seq<Lit>, mss: seq<Lit>, from: nat, to: nat)
    requires from < to && mss0 <= mss && check(from, mss0 + [first]) == LFalse
    requires forall x :: x in mcsEnd && x !in mcs0 ==> x == first || Refuted(check, x, from + 1, to, mss)
    ensures forall x :: x in mcsEnd && x !in mcs0 ==> Refuted(check, x, from, to, mss)
  {
    assert mss[..|mss0|] == mss0;
    forall x | x in mcsEnd && x !in mcs0
      ensures Refuted(check, x, from, to, mss)
    {
      if x != first {
        RefutedWiden(check, x, from + 1, to, mss, from, to, mss);
      }
    }
  }

  /** One more bucket resolved: the literals it corrected were refuted during it,
      except those it spared, and the earlier ones were refuted before it. */
  lemma RefutedThroughBucket(check: (nat, seq<Lit>) -> LBool, mcs0: set<Lit>, mcsBefore: set<Lit>, mcs: set<Lit>,
                             mssBefore: seq<Lit>, mss: seq<Lit>, from: nat, mid: nat, to: nat,
                             sparedBefore: seq<set<Lit>>, sp: set<Lit>, spared: seq<set<Lit>>)
    requires from <= mid <= to && mssBefore <= mss && spared == sparedBefore + [sp]
    requires forall x :: x in mcsBefore && x !in mcs0 && (forall k :: 0 <= k < |sparedBefore| ==> x !in sparedBefore[k]) ==>
      Refuted(check, x, from, mid, mssBefore)
    requires forall x :: x in mcs && x !in mcsBefore && x !in sp ==> Refuted(check, x, mid, to, mss)
    ensures forall x :: x in mcs && x !in mcs0 && (forall k :: 0 <= k < |spared| ==> x !in spared[k]) ==>
      Refuted(check, x, from, to, mss)
  {
    forall x | x in mcs && x !in mcs0 && (forall k :: 0 <= k < |spared| ==> x !in spared[k])
      ensures Refuted(check, x, from, to, mss)
    {
      assert x !in spared[|sparedBefore|];
      if x in mcsBefore {
        assert forall k :: 0 <= k < |sparedBefore| ==> sparedBefore[k] == spared[k];
        RefutedWiden(check, x, from, mid, mssBefore, from, to, mss);
      } else {
        RefutedWiden(check, x, mid, to, mss, from, to, mss);
      }
    }
  }

  /** After a satisfiable answer the bucket is skimmed and the survivors `rest` are
      resolved: what happened to `rest` happened to the bucket. */
  lemma SkimmedResolved(core: seq<Lit>, rest: seq<Lit>, m: Model, r: LBool, mss0: seq<Lit>, mcs0: set<Lit>,
                        mssSkimmed: seq<Lit>, mss: seq<Lit>, mcs: set<Lit>, unrefuted: set<Lit>)
    requires rest == Kept(core, mcs0, m) && mssSkimmed == mss0 + Moved(core, mcs0, m)
    requires mssSkimmed <= mss && mcs0 <= mcs
    requires forall x :: x in mss && x !in mssSkimmed ==> x in rest
    requires forall x :: x in mcs && x !in mcs0 ==> x in rest
    requires r == LTrue ==> forall x :: x in rest ==> x in mss || x in mcs
    requires forall x :: x in unrefuted ==> x in rest
    ensures forall x :: x in mss && x !in mss0 ==> x in core
    ensures forall x :: x in mcs && x !in mcs0 ==> x in core
    ensures r == LTrue ==> forall x :: x in core ==> x in mss || x in mcs
    ensures forall x :: x in unrefuted ==> x in core
  {
    forall x
      ensures x in rest ==> x in core
      ensures x in mssSkimmed && x !in mss0 ==> x in core
      ensures x in core && r == LTrue ==> x in mss || x in mcs
    {
      KeptMembers(core, mcs0, m, x);
      MovedMembers(core, mcs0, m, x);
      if x in core {
        SkimCovers(core, mcs0, m, x);
      }
      assert x in mssSkimmed ==> x in mss;
    }
  }

  /** After the first literal of a bucket is corrected and the rest of the bucket,
      `c`, is resolved: what happened to `c` happened to the bucket, and with the
      first literal everything corrected was refuted. */
  lemma AfterFirstCorrected(core: seq<Lit>, c: seq<Lit>, check: (nat, seq<Lit>) -> LBool, r: LBool,
                            mss0: seq<Lit>, mcs0: set<Lit>, mcs1: set<Lit>, mss: seq<Lit>, mcs: set<Lit>,
                            from: nat, to: nat, unrefuted: set<Lit>)
    requires core != [] && c == RemoveFirst(core) && mcs1 == mcs0 + {core[0]} && mcs1 <= mcs && unrefuted == {}
    requires forall x :: x in mss && x !in mss0 ==> x in c
    requires forall x :: x in mcs && x !in mcs1 ==> x in c
    requires r == LTrue ==> forall x :: x in c ==> x in mss || x in mcs
    requires forall x :: x in mcs && x !in mcs1 && x !in unrefuted ==> Refuted(check, x, from, to, mss)
    ensures forall x :: x in mss && x !in mss0 ==> x in core
    ensures forall x :: x in mcs && x !in mcs0 ==> x in core
    ensures r == LTrue ==> forall x :: x in core ==> x in mss || x in mcs
    ensures forall x :: x in mcs && x !in mcs0 ==> x == core[0] || Refuted(check, x, from, to, mss)
  {
    forall x
      ensures x in core ==> x == core[0] || x in c
      ensures x in c ==> x in core
    {
      RemoveFirstMembers(core, x);
    }
  }

  /** Under the corrected guard the shortcut classifies every literal left in the bucket. */
  lemma LastLiteralShortcutClassifiesAll(sz: nat, core: seq<Lit>, hasMcs: bool, moreBucketsFollow: bool, mcs: set<Lit>)
    requires LastLiteralShortcut(sz, core, hasMcs, moreBucketsFollow)
    ensures forall x :: x in core ==> x in ShortcutMcs(mcs, core)
  {
  }

  /** Swap-with-back-and-pop: the first literal is overwritten by the last one and
      the last position is dropped, so exactly one occurrence of the first literal
      leaves the bucket and the order of the rest is not kept. */
  function RemoveFirst(core: seq<Lit>): (r: seq<Lit>)
    requires core != []
    ensures |r| == |core| - 1
    ensures multiset(r) == multiset(core) - multiset{core[0]}
  {
    var n := |core|;
    var c := core[0 := core[n - 1]];
    assert n > 1 ==> core == [core[0]] + core[1..n - 1] + [core[n - 1]];
    assert n > 1 ==> c[..n - 1] == [core[n - 1]] + core[1..n - 1];
    c[..n - 1]
  }

  /** Every literal of the bucket other than the first is still there after
      swap-with-back-and-pop, and nothing new is. */
  lemma RemoveFirstMembers(core: seq<Lit>, x: Lit)
    requires core != []
    ensures x in core && x != core[0] ==> x in RemoveFirst(core)
    ensures x in RemoveFirst(core) ==> x in core
  {
    assert multiset(RemoveFirst(core))[x] == multiset(core)[x] - (if x == core[0] then 1 else 0);
  }

  /** `core` holds each literal once, none of them classified yet, and the MSS and
      the correction set are disjoint. */
  ghost predicate Unclassified(core: seq<Lit>, mss: seq<Lit>, mcs: set<Lit>) {
    NoDups(core) && Disjoint(mss, mcs) && forall x :: x in core ==> x !in mss && x !in mcs
  }

  /** Moving the first literal of an unclassified bucket into the correction set
      leaves the rest of the bucket unclassified. */
  lemma RemoveFirstKeepsUnclassified(core: seq<Lit>, mss: seq<Lit>, mcs: set<Lit>)
    requires core != [] && Unclassified(core, mss, mcs)
    ensures Unclassified(RemoveFirst(core), mss, mcs + {core[0]})
  {
    var c := RemoveFirst(core);
    forall x ensures multiset(c)[x] <= 1 {
      assert multiset(c)[x] <= multiset(core)[x];
    }
    forall x | x in c ensures x != core[0] && x in core {
      RemoveFirstMembers(core, x);
      assert multiset(c)[x] == multiset(core)[x] - (if x == core[0] then 1 else 0);
    }
  }

  /** The two halves of an unclassified bucket are unclassified and share no literal. */
  lemma SplitKeepsUnclassified(core: seq<Lit>, size: nat, mss: seq<Lit>, mcs: set<Lit>)
    requires size <= |core| && Unclassified(core, mss, mcs)
    ensures Unclassified(core[..size], mss, mcs) && Unclassified(core[size..], mss, mcs)
    ensures forall x :: x in core[..size] ==> x !in core[size..]
  {
    assert core == core[..size] + core[size..];
    assert multiset(core) == multiset(core[..size]) + multiset(core[size..]);
    forall x
      ensures multiset(core[..size])[x] <= 1 && multiset(core[size..])[x] <= 1
      ensures x in core[..size] ==> x !in core[size..]
    {
      assert multiset(core)[x] == multiset(core[..size])[x] + multiset(core[size..])[x];
    }
  }

  /** Skimming a bucket without repeated literals against a model that makes the
      MSS true leaves the survivors unclassified. */
  lemma SkimKeepsUnclassified(core: seq<Lit>, mss: seq<Lit>, mcs: set<Lit>, model: Model)
    requires NoDups(core) && Disjoint(mss, mcs) && AllTrue(model, mss)
    ensures Unclassified(Kept(core, mcs, model), mss + Moved(core, mcs, model), mcs)
  {
    KeptNoDups(core, mcs, model);
    forall x
      ensures x in Kept(core, mcs, model) ==> !IsTrue(model, x) && x !in mcs
      ensures x in Moved(core, mcs, model) ==> x !in mcs && IsTrue(model, x)
      ensures x in mss ==> IsTrue(model, x)
    {
      KeptMembers(core, mcs, model, x);
      MovedMembers(core, mcs, model, x);
    }
  }

  /** What skimming a bucket achieves right after the oracle found the MSS and
      the first `size` literals of the bucket satisfiable under `model`: the
      bucket shrinks by at least `size`, loses nothing, takes on nothing new, and
      the MSS extended by the committed literals is still true under `model`. */
  lemma SkimAfterSat(core: seq<Lit>, size: nat, mss: seq<Lit>, mcs: set<Lit>, model: Model)
    requires 0 < size <= |core|
    requires Satisfies(model, mss + core[..size])
    ensures |Kept(core, mcs, model)| < |core|
    ensures multiset(Kept(core, mcs, model)) <= multiset(core)
    ensures AllTrue(model, mss + Moved(core, mcs, model))
    ensures forall x :: x in Moved(core, mcs, model) ==> x in core
    ensures forall x :: x in Kept(core, mcs, model) ==> x in core
    ensures forall x :: x in core ==> x in mcs || x in Moved(core, mcs, model) || x in Kept(core, mcs, model)
    ensures Unclassified(core, mss, mcs) ==>
      Unclassified(Kept(core, mcs, model), mss + Moved(core, mcs, model), mcs)
  {
    forall l | l in mss ensures IsTrue(model, l) {
      assert l in mss + core[..size];
    }
    forall l | l in core[..size] ensures IsTrue(model, l) {
      assert l in mss + core[..size];
    }
    KeptDropsTruePrefix(core, mcs, model, size);
    SkimSplits(core, mcs, model);
    forall x
      ensures x in Moved(core, mcs, model) ==> x in core && IsTrue(model, x)
      ensures x in Kept(core, mcs, model) ==> x in core
      ensures x in core ==> x in mcs || x in Moved(core, mcs, model) || x in Kept(core, mcs, model)
    {
      KeptMembers(core, mcs, model, x);
      MovedMembers(core, mcs, model, x);
    }
    if Unclassified(core, mss, mcs) {
      SkimKeepsUnclassified(core, mss, mcs, model);
    }
  }

  /** Once every bucket is resolved, every literal of the pool and of the cores
      has been classified: a pool literal the model made true was committed by
      bucketing, and any other is in some core or in the trailing bucket. */
  lemma BucketsCoverPool(cores: seq<seq<Lit>>, literals: seq<Lit>, model: Model, buckets: seq<seq<Lit>>,
                         mss: seq<Lit>, mcs: set<Lit>)
    requires |buckets| == |cores| + 1
    requires forall k :: 0 <= k < |cores| ==> buckets[k] == cores[k]
    requires forall x :: x in literals && !InSomeCore(cores, x) && !IsTrue(model, x) ==> x in buckets[|cores|]
    requires forall x :: x in literals && IsTrue(model, x) ==> x in mss
    requires forall k, x :: 0 <= k < |buckets| && x in buckets[k] ==> x in mss || x in mcs
    ensures forall x :: x in literals ==> x in mss || x in mcs
    ensures forall k, x :: 0 <= k < |cores| && x in cores[k] ==> x in mss || x in mcs
  {
    forall k, x | 0 <= k < |cores| && x in cores[k]
      ensures x in mss || x in mcs
    {
      assert buckets[k] == cores[k];
    }
  }

  /** The literals the bucket loop spared from refutation, at most one per bucket and
      none from the last, trimmed to the buckets of the cores: at most one per core. */
  lemma SparedCoresOnly(cores: seq<seq<Lit>>, buckets: seq<seq<Lit>>, sp: seq<set<Lit>>, spared: seq<set<Lit>>,
                        check: (nat, seq<Lit>) -> LBool, mcs0: set<Lit>, mcs: set<Lit>, from: nat, to: nat, mss: seq<Lit>)
    requires |buckets| == |cores| + 1 && forall k :: 0 <= k < |cores| ==> buckets[k] == cores[k]
    requires |sp| <= |buckets| && mcs0 == {}
    requires forall k :: 0 <= k < |sp| ==> |sp[k]| <= 1
    requires forall k, x :: 0 <= k < |sp| && x in sp[k] ==> x in buckets[k]
    requires forall k :: 0 <= k < |sp| && k == |buckets| - 1 ==> sp[k] == {}
    requires forall x :: x in mcs && x !in mcs0 && (forall k :: 0 <= k < |sp| ==> x !in sp[k]) ==>
      Refuted(check, x, from, to, mss)
    requires spared == if |sp| > |cores| then sp[..|cores|] else sp
    ensures |spared| <= |cores|
    ensures forall k :: 0 <= k < |spared| ==> |spared[k]| <= 1
    ensures forall k, x :: 0 <= k < |spared| && x in spared[k] ==> x in cores[k]
    ensures forall x :: x in mcs && (forall k :: 0 <= k < |spared| ==> x !in spared[k]) ==>
      Refuted(check, x, from, to, mss)
    ensures forall x :: x in mcs ==> InSomeCore(cores, x) || Refuted(check, x, from, to, mss)
  {
    forall x | x in mcs && (forall k :: 0 <= k < |spared| ==> x !in spared[k])
      ensures forall k :: 0 <= k < |sp| ==> x !in sp[k]
    {
    }
    forall x | x in mcs && !Refuted(check, x, from, to, mss)
      ensures InSomeCore(cores, x)
    {
      var k :| 0 <= k < |spared| && x in spared[k];
      assert x in cores[k];
    }
  }

  /** Whatever the extraction classifies comes from the pool or the cores: the
      literals bucketing committed do, and so does every literal added later,
      since it comes from some bucket. */
  lemma ClassifiedFromPool(cores: seq<seq<Lit>>, literals: seq<Lit>, buckets: seq<seq<Lit>>, processed: nat,
                           committed: seq<Lit>, mss: seq<Lit>, mcs: set<Lit>)
    requires |buckets| == |cores| + 1 && processed <= |buckets|
    requires forall k :: 0 <= k < |cores| ==> buckets[k] == cores[k]
    requires forall x :: x in buckets[|cores|] ==> x in literals
    requires forall x :: x in committed ==> InSomeCore(cores, x) || x in literals
    requires forall x :: x in mss && x !in committed ==> exists k :: 0 <= k < processed && x in buckets[k]
    requires forall x :: x in mcs ==> exists k :: 0 <= k < processed && x in buckets[k]
    ensures forall x :: x in mss || x in mcs ==> x in literals || InSomeCore(cores, x)
  {
    forall x | (x in mss && x !in committed) || x in mcs
      ensures x in literals || InSomeCore(cores, x)
    {
      var k :| 0 <= k < processed && x in buckets[k];
      if k < |cores| {
        assert buckets[k] == cores[k];
      }
    }
  }

  class Mss {
    /** The oracle, shared with the caller. */
    const s: Solver
    /** The term universe the literals come from. */
    const terms: Terms
    /** Cooperative cancellation, set from outside and read at every resolution step. */
    var cancel: bool
    /** The literals established to be jointly satisfiable, in commit order. */
    var mss: seq<Lit>
    /** The correction set. */
    var mcs: set<Lit>
    /** The live model. */
    var model: Model

    /** The oracle is sound and the live model makes every MSS literal true. */
    ghost predicate Valid()
      reads this
    {
      s.Sound() && AllTrue(model, mss)
    }

    /** A fresh extractor holds no model yet: the placeholder evaluates nothing
        to false, just as a missing model passes the invariant check. */
    constructor (s: Solver, terms: Terms)
      ensures this.s == s && this.terms == terms
      ensures !cancel && mss == [] && mcs == {}
      ensures forall l :: model(l) == VOther
    {
      this.s := s;
      this.terms := terms;
      cancel := false;
      mss := [];
      mcs := {};
      model := _ => VOther;
    }

    /** Bucketing. Validates the pool, commits every core literal the model makes
        true (once, on first sight), commits the pool literals outside the cores
        that the model makes true, and appends the bucket of the other pool
        literals outside the cores. Throws, before evaluating anything, when a
        pool literal is not an uninterpreted constant or its negation. The
        contract states the outcome literal by literal; the two scans below
        state the exact sequences. */
    method Initialize(cores: seq<seq<Lit>>, literals: seq<Lit>) returns (res: Result<seq<seq<Lit>>>)
      modifies this`mss
      ensures res.Failure? <==> !AllLiterals(terms, literals)
      ensures res.Failure? ==> res.error == InvalidArgumentMessage && mss == old(mss)
      ensures res.Success? ==> |res.value| == |cores| + 1
      ensures res.Success? ==> forall k :: 0 <= k < |cores| ==> res.value[k] == cores[k]
      ensures res.Success? ==> forall x :: x in res.value[|cores|] <==>
        x in literals && !InSomeCore(cores, x) && !IsTrue(model, x)
      ensures res.Success? ==> NoDups(res.value[|cores|]) && Subseq(res.value[|cores|], literals)
      ensures res.Success? ==> old(mss) <= mss
      ensures res.Success? ==> forall x :: x in mss[|old(mss)|..] <==>
        (InSomeCore(cores, x) || x in literals) && IsTrue(model, x)
    {
      var i := 0;
      while i < |literals|
        invariant 0 <= i <= |literals|
        invariant forall k :: 0 <= k < i ==> IsLiteral(terms, literals[k])
      {
        var n := literals[i];
        if terms.isNot(n) {
          n := terms.notArg(n);
        }
        if !terms.isUninterpConst(n) {
          return Failure(InvalidArgumentMessage);
        }
        i := i + 1;
      }

      var coreLits := CommitCoreLiterals(cores);
      var restCore := CommitPoolLiterals(literals, coreLits, Flatten(cores));
      res := Success(cores + [restCore]);
      BucketsShape(cores, literals, model, res.value);
      CommittedShape(cores, literals, model, old(mss), mss);
    }

    /** The scan of the cores within bucketing: each literal met for the first time
        is recorded and, when the model makes it true, committed to the MSS.
        Returns the set of core literals. */
    method CommitCoreLiterals(cores: seq<seq<Lit>>) returns (coreLits: set<Lit>)
      modifies this`mss
      ensures forall x :: x in coreLits <==> x in Flatten(cores)
      ensures mss == old(mss) + FirstSeenTrue(Flatten(cores), model)
    {
      coreLits := {};
      ghost var flat: seq<Lit> := [];
      ghost var done: seq<seq<Lit>> := [];
      var i := 0;
      while i < |cores|
        invariant 0 <= i <= |cores|
        invariant done == cores[..i] && flat == Flatten(done)
        invariant forall x :: x in coreLits <==> x in flat
        invariant mss == old(mss) + FirstSeenTrue(flat, model)
      {
        var core := cores[i];
        coreLits := CommitCore(core, coreLits, flat, old(mss));
        assert cores[..i + 1] == done + [core];
        FlattenSnoc(done, core);
        done := done + [core];
        flat := flat + core;
        i := i + 1;
      }
      assert done == cores;
    }

    /** One core of that scan: `coreLits` holds the literals of `seen`, the
        cores scanned before this one, and the MSS is `base` followed by what
        scanning them committed. */
    method CommitCore(core: seq<Lit>, coreLits: set<Lit>, ghost seen: seq<Lit>, ghost base: seq<Lit>)
      returns (coreLitsOut: set<Lit>)
      requires forall x :: x in coreLits <==> x in seen
      requires mss == base + FirstSeenTrue(seen, model)
      modifies this`mss
      ensures forall x :: x in coreLitsOut <==> x in seen + core
      ensures mss == base + FirstSeenTrue(seen + core, model)
    {
      var md := model;
      coreLitsOut := coreLits;
      ghost var scanned := seen;
      var j := 0;
      assert seen + core[..j] == seen;
      while j < |core|
        invariant 0 <= j <= |core|
        invariant scanned == seen + core[..j]
        invariant forall x :: x in coreLitsOut <==> x in scanned
        invariant mss == base + FirstSeenTrue(scanned, md)
      {
        var n := core[j];
        assert core[..j + 1] == core[..j] + [n];
        CoreScanStep(scanned, n, md, coreLitsOut);
        if n !in coreLitsOut {
          coreLitsOut := coreLitsOut + {n};
          if IsTrue(md, n) {
            mss := mss + [n];
          }
        }
        scanned := scanned + [n];
        j := j + 1;
      }
      assert core[..j] == core;
    }

    /** The scan of the pool within bucketing: a literal outside the cores is
        committed to the MSS when the model makes it true (every occurrence), and
        otherwise goes to the trailing bucket, once. */
    method CommitPoolLiterals(literals: seq<Lit>, coreLits: set<Lit>, ghost flat: seq<Lit>) returns (restCore: seq<Lit>)
      requires forall x :: x in coreLits <==> x in flat
      modifies this`mss
      ensures restCore == RestBucket(literals, flat, model)
      ensures mss == old(mss) + PoolTrue(literals, flat, model)
    {
      var md := model;
      var seenLits := coreLits;
      restCore := [];
      ghost var pool: seq<Lit> := [];
      var i := 0;
      while i < |literals|
        invariant 0 <= i <= |literals|
        invariant pool == literals[..i]
        invariant restCore == RestBucket(pool, flat, md)
        invariant forall x :: x in seenLits <==> x in flat || x in restCore
        invariant mss == old(mss) + PoolTrue(pool, flat, md)
      {
        var n := literals[i];
        assert literals[..i + 1] == pool + [n];
        PoolScanStep(pool, n, flat, md, seenLits);
        if n !in seenLits {
          if IsTrue(md, n) {
            mss := mss + [n];
          } else {
            restCore := restCore + [n];
            seenLits := seenLits + {n};
          }
        }
        pool := pool + [n];
        i := i + 1;
      }
      assert literals[..i] == literals;
    }

    /** Skimming a bucket in place: literals already in the correction set are
        dropped, literals the model makes true are committed to the MSS, and the
        others are compacted to the front, in order. */
    method UpdateSet(lits: seq<Lit>) returns (kept: seq<Lit>)
      modifies this`mss
      ensures kept == Kept(lits, mcs, model)
      ensures mss == old(mss) + Moved(lits, mcs, model)
    {
      var cs, md := mcs, model;
      var buf := lits;
      var j := 0;
      var i := 0;
      while i < |lits|
        invariant |buf| == |lits|
        invariant 0 <= j <= i <= |lits|
        invariant buf[..j] == Kept(lits[..i], cs, md)
        invariant buf[i..] == lits[i..]
        invariant mss == old(mss) + Moved(lits[..i], cs, md)
      {
        CompactStep(lits, buf, i, j, cs, md);
        var n := buf[i];
        if n in cs {
          // Already resolved: dropped from the bucket.
        } else if !IsTrue(md, n) {
          if j != i {
            buf := buf[j := buf[i]];
          }
          j := j + 1;
        } else {
          mss := mss + [n];
        }
        i := i + 1;
      }
      assert lits[..i] == lits;
      kept := buf[..j];
    }

    /** The speculative check: `chunk` is appended to the MSS, the oracle is asked
        about the MSS so extended, and the MSS is cut back to its previous length. */
    method CheckChunk(chunk: seq<Lit>) returns (r: LBool)
      modifies this`mss, s
      ensures mss == old(mss)
      ensures r == s.check(old(s.calls), mss + chunk)
      ensures s.calls == old(s.calls) + 1
      ensures s.model == if r == LTrue then s.modelAfter(old(s.calls), mss + chunk) else old(s.model)
    {
      var saved := |mss|;
      mss := mss + chunk;
      r := s.CheckSat(mss);
      mss := mss[..saved];
    }

    /** Core resolution, with chunk size `sz`, of one bucket. `hasMcs` says whether
        a literal of this bucket's lineage has entered the correction set and is
        handed back updated; `moreBucketsFollow` is the flag computed as
        "another bucket follows this one" (false for split-off sub-buckets).
        Returns the result and the bucket as the call leaves it. The MSS only
        grows, and only by literals of the bucket, and so does the correction
        set; on success every literal of the bucket is in one of them. */
    method ProcessCore(sz: nat, core: seq<Lit>, hasMcs: bool, moreBucketsFollow: bool)
      returns (r: LBool, coreOut: seq<Lit>, hasMcsOut: bool, ghost unrefuted: set<Lit>)
      requires sz > 0
      requires Valid()
      modifies this`mss, this`mcs, this`model, s
      ensures Valid()
      ensures r != LFalse
      ensures old(mss) <= mss && old(mcs) <= mcs
      ensures forall x :: x in mss && x !in old(mss) ==> x in core
      ensures forall x :: x in mcs && x !in old(mcs) ==> x in core
      ensures s.calls >= old(s.calls)
      ensures hasMcs ==> hasMcsOut
      ensures multiset(coreOut) <= multiset(core)
      ensures r == LTrue ==> forall x :: x in core ==> x in mss || x in mcs
      ensures Unclassified(core, old(mss), old(mcs)) ==> Disjoint(mss, mcs)
      // The cases decided without the oracle.
      ensures core == [] ==> r == LTrue && mss == old(mss) && mcs == old(mcs) && s.calls == old(s.calls)
      ensures core != [] && old(cancel) ==>
        r == LUndef && mss == old(mss) && mcs == old(mcs) && model == old(model) && s.calls == old(s.calls)
      ensures core != [] && !old(cancel) && LastLiteralShortcut(sz, core, hasMcs, moreBucketsFollow) ==>
        r == LTrue && mcs == ShortcutMcs(old(mcs), core) && mss == old(mss) && s.calls == old(s.calls)
      // Otherwise the first question is about the MSS extended by the first min(sz, |core|) literals.
      ensures core != [] && !old(cancel) && !LastLiteralShortcut(sz, core, hasMcs, moreBucketsFollow) ==>
        s.calls > old(s.calls)
      ensures (core != [] && !old(cancel) && !LastLiteralShortcut(sz, core, hasMcs, moreBucketsFollow) &&
        s.check(old(s.calls), old(mss) + core[..Min(sz, |core|)]) == LUndef) ==>
        r == LUndef && mss == old(mss) && mcs == old(mcs) && s.calls == old(s.calls) + 1
      ensures (core != [] && !old(cancel) && !LastLiteralShortcut(sz, core, hasMcs, moreBucketsFollow) &&
        s.check(old(s.calls), old(mss) + core[..Min(sz, |core|)]) == LFalse && Min(sz, |core|) == 1) ==>
        core[0] in mcs && hasMcsOut
      ensures (core != [] && !old(cancel) && !LastLiteralShortcut(sz, core, hasMcs, moreBucketsFollow) &&
        s.check(old(s.calls), old(mss) + core[..Min(sz, |core|)]) == LTrue) ==>
        forall x :: x in core[..Min(sz, |core|)] && x !in old(mcs) ==> x in mss
      // Every literal corrected was refuted by the oracle, except at most one: the
      // shortcut's, possible only while more buckets follow and no literal of this
      // bucket has been corrected.
      ensures |unrefuted| <= 1 && forall x :: x in unrefuted ==> x in core
      ensures unrefuted != {} ==> moreBucketsFollow && !hasMcs
      ensures forall x :: x in mcs && x !in old(mcs) && x !in unrefuted ==>
        Refuted(s.check, x, old(s.calls), s.calls, mss)
      decreases |core|, if sz > 1 then 1 else 0, 1
    {
      if core == [] {
        return LTrue, core, hasMcs, {};
      }
      if cancel {
        return LUndef, core, hasMcs, {};
      }
      if LastLiteralShortcut(sz, core, hasMcs, moreBucketsFollow) {
        // The one literal left in the bucket is taken to be the one to correct.
        mcs := ShortcutMcs(mcs, core);
        return LTrue, core, hasMcs, {core[0]};
      }
      var size := Min(sz, |core|);
      ghost var calls0, mss0, mcs0 := s.calls, mss, mcs;
      var isSat := CheckChunk(core[..size]);
      ghost var calls1 := s.calls;
      match isSat {
        case LTrue =>
          r, coreOut, hasMcsOut, unrefuted := ResolveSat(size, core, hasMcs, moreBucketsFollow);
          RefutedSince(s.check, mcs0, mcs, mss, calls0, calls1, s.calls, unrefuted);
        case LFalse =>
          if size == 1 {
            assert core[..size] == [core[0]];
            r, coreOut, hasMcsOut, unrefuted := ResolveUnsatSingle(core, hasMcs, moreBucketsFollow);
            RefutedFirstThenRest(s.check, core[0], mcs0, mcs, mss0, mss, calls0, s.calls);
          } else {
            r, coreOut, hasMcsOut, unrefuted := ResolveUnsatSplit(size, core, hasMcs, moreBucketsFollow);
            RefutedSince(s.check, mcs0, mcs, mss, calls0, calls1, s.calls, unrefuted);
          }
        case LUndef =>
          return LUndef, core, hasMcs, {};
      }
    }

    /** The satisfiable case of core resolution: the solver's model, which makes
        the MSS and the first `size` literals true, becomes the live model; the
        bucket is skimmed against it and resolved again with twice the chunk. */
    method ResolveSat(size: nat, core: seq<Lit>, hasMcs: bool, moreBucketsFollow: bool)
      returns (r: LBool, coreOut: seq<Lit>, hasMcsOut: bool, ghost unrefuted: set<Lit>)
      requires 0 < size <= |core|
      requires Satisfies(s.model, mss + core[..size])
      requires Valid()
      modifies this`mss, this`mcs, this`model, s
      ensures Valid()
      ensures r != LFalse
      ensures old(mss) <= mss && old(mcs) <= mcs
      ensures forall x :: x in mss && x !in old(mss) ==> x in core
      ensures forall x :: x in mcs && x !in old(mcs) ==> x in core
      ensures s.calls >= old(s.calls)
      ensures hasMcs ==> hasMcsOut
      ensures multiset(coreOut) <= multiset(core)
      ensures r == LTrue ==> forall x :: x in core ==> x in mss || x in mcs
      ensures Unclassified(core, old(mss), old(mcs)) ==> Disjoint(mss, mcs)
      // The accepted chunk is committed: each of its literals not yet corrected is in the MSS.
      ensures forall x :: x in core[..size] && x !in old(mcs) ==> x in mss
      // The bucket, skimmed against the new model, is resolved next with twice the chunk.
      ensures var rest := Kept(core, old(mcs), old(s.model));
        (!old(cancel) && rest != [] &&
         s.check(old(s.calls), old(mss) + Moved(core, old(mcs), old(s.model)) + rest[..Min(2 * size, |rest|)]) == LUndef) ==>
        r == LUndef && mss == old(mss) + Moved(core, old(mcs), old(s.model)) && mcs == old(mcs) &&
        s.calls == old(s.calls) + 1
      // Every literal corrected was refuted by the oracle, except at most one: the
      // shortcut's, possible only while more buckets follow and no literal of this
      // bucket has been corrected.
      ensures |unrefuted| <= 1 && forall x :: x in unrefuted ==> x in core
      ensures unrefuted != {} ==> moreBucketsFollow && !hasMcs
      ensures forall x :: x in mcs && x !in old(mcs) && x !in unrefuted ==>
        Refuted(s.check, x, old(s.calls), s.calls, mss)
      decreases |core|, if size > 1 then 1 else 0, 0
    {
      ghost var mss0, mcs0, calls0 := mss, mcs, s.calls;
      var m := s.GetModel();
      model := m;
      SkimAfterSat(core, size, mss0, mcs0, m);
      var rest := UpdateSet(core);
      ghost var mssSkimmed := mss;
      forall x | x in core[..size] && x !in mcs0
        ensures x in mssSkimmed
      {
        assert x in mss0 + core[..size];
        MovedMembers(core, mcs0, m, x);
      }
      assert rest == Kept(core, old(mcs), old(s.model)) && mssSkimmed == old(mss) + Moved(core, old(mcs), old(s.model));
      assert mss0 <= mssSkimmed;
      if Unclassified(core, mss0, mcs0) {
        assert Unclassified(rest, mssSkimmed, mcs0);
      }
      assert !LastLiteralShortcut(2 * size, rest, hasMcs, moreBucketsFollow);
      ghost var calls1 := s.calls;
      ghost var undef := !cancel && rest != [] && s.check(calls1, mssSkimmed + rest[..Min(2 * size, |rest|)]) == LUndef;
      r, coreOut, hasMcsOut, unrefuted := ProcessCore(2 * size, rest, hasMcs, moreBucketsFollow);
      assert undef ==> r == LUndef && mss == mssSkimmed && mcs == mcs0 && s.calls == calls1 + 1;
      SkimmedResolved(core, rest, m, r, mss0, mcs0, mssSkimmed, mss, mcs, unrefuted);
    }

    /** The unsatisfiable case of core resolution with chunk 1: the first literal
        enters the correction set, is removed by swap-with-back-and-pop, and the
        rest of the bucket is resolved with chunk 1. */
    method ResolveUnsatSingle(core: seq<Lit>, hasMcs: bool, moreBucketsFollow: bool)
      returns (r: LBool, coreOut: seq<Lit>, hasMcsOut: bool, ghost unrefuted: set<Lit>)
      requires core != []
      requires Valid()
      modifies this`mss, this`mcs, this`model, s
      ensures Valid()
      ensures r != LFalse
      ensures old(mss) <= mss && old(mcs) <= mcs
      ensures forall x :: x in mss && x !in old(mss) ==> x in core
      ensures forall x :: x in mcs && x !in old(mcs) ==> x in core
      ensures s.calls >= old(s.calls)
      ensures hasMcs ==> hasMcsOut
      ensures multiset(coreOut) <= multiset(core)
      ensures r == LTrue ==> forall x :: x in core ==> x in mss || x in mcs
      ensures Unclassified(core, old(mss), old(mcs)) ==> Disjoint(mss, mcs)
      ensures core[0] in mcs && hasMcsOut
      ensures unrefuted == {}
      ensures forall x :: x in mcs && x !in old(mcs) ==> x == core[0] || Refuted(s.check, x, old(s.calls), s.calls, mss)
      // The rest of the bucket is resolved next with chunk 1.
      ensures (!old(cancel) && |core| > 1 && s.check(old(s.calls), old(mss) + RemoveFirst(core)[..1]) == LUndef) ==>
        r == LUndef && mss == old(mss) && mcs == old(mcs) + {core[0]} && s.calls == old(s.calls) + 1
      decreases |core|, 0, 0
    {
      ghost var mss0, mcs0 := mss, mcs;
      var c := ExcludeFirst(core);
      forall x | x in core
        ensures x == core[0] || x in c
        ensures x in c ==> x in core
      {
        RemoveFirstMembers(core, x);
      }
      if Unclassified(core, mss0, mcs0) {
        RemoveFirstKeepsUnclassified(core, mss0, mcs0);
      }
      ghost var mss1, mcs1, calls1 := mss, mcs, s.calls;
      ghost var undef := !cancel && |core| > 1 && s.check(calls1, mss1 + RemoveFirst(core)[..1]) == LUndef;
      assert !LastLiteralShortcut(1, c, true, moreBucketsFollow);
      assert c != [] ==> c[..Min(1, |c|)] == RemoveFirst(core)[..1];
      r, coreOut, hasMcsOut, unrefuted := ProcessCore(1, c, true, moreBucketsFollow);
      assert undef ==> r == LUndef && mss == mss1 && mcs == mcs1 && s.calls == calls1 + 1;
      assert multiset(c) <= multiset(core);
      AfterFirstCorrected(core, c, s.check, r, mss0, mcs0, mcs1, mss, mcs, calls1, s.calls, unrefuted);
    }

    /** The unsatisfiable case of core resolution with a chunk `size` of more than
        one literal: the literals from position `size` on are resolved first, as a
        bucket of their own with the same chunk and no more buckets following;
        if that succeeds the first `size` literals are resolved with chunk 1. */
    method ResolveUnsatSplit(size: nat, core: seq<Lit>, hasMcs: bool, moreBucketsFollow: bool)
      returns (r: LBool, coreOut: seq<Lit>, hasMcsOut: bool, ghost unrefuted: set<Lit>)
      requires 1 < size <= |core|
      requires Valid()
      modifies this`mss, this`mcs, this`model, s
      ensures Valid()
      ensures r != LFalse
      ensures old(mss) <= mss && old(mcs) <= mcs
      ensures forall x :: x in mss && x !in old(mss) ==> x in core
      ensures forall x :: x in mcs && x !in old(mcs) ==> x in core
      ensures s.calls >= old(s.calls)
      ensures hasMcs ==> hasMcsOut
      ensures multiset(coreOut) <= multiset(core)
      ensures r == LTrue ==> forall x :: x in core ==> x in mss || x in mcs
      ensures Unclassified(core, old(mss), old(mcs)) ==> Disjoint(mss, mcs)
      // Every literal corrected was refuted by the oracle, except at most one: the
      // shortcut's, possible only while more buckets follow and no literal of this
      // bucket has been corrected.
      ensures |unrefuted| <= 1 && forall x :: x in unrefuted ==> x in core
      ensures unrefuted != {} ==> moreBucketsFollow && !hasMcs
      ensures forall x :: x in mcs && x !in old(mcs) && x !in unrefuted ==>
        Refuted(s.check, x, old(s.calls), s.calls, mss)
      ensures forall x :: x in unrefuted ==> x in core[..size]
      ensures !old(cancel) ==> s.calls > old(s.calls)
      // The suffix from position `size` is resolved first: an unknown answer to its
      // first question ends the call.
      ensures (!old(cancel) && size < |core| &&
        s.check(old(s.calls), old(mss) + core[size..][..Min(size, |core| - size)]) == LUndef) ==>
        r == LUndef && mss == old(mss) && mcs == old(mcs) && s.calls == old(s.calls) + 1
      decreases |core|, 1, 0
    {
      ghost var mss0, mcs0 := mss, mcs;
      var core2 := core[size..];
      var c := core[..size];
      assert core == c + core2;
      ghost var untouched := Unclassified(core, mss0, mcs0);
      if untouched {
        SplitKeepsUnclassified(core, size, mss0, mcs0);
      }
      var r2, core2Out, h;
      ghost var calls0 := s.calls;
      ghost var spared2;
      r2, core2Out, h, spared2 := ProcessCore(size, core2, hasMcs, false);
      if r2 != LTrue {
        return r2, c, h, {};
      }
      ghost var calls1, mss1, mcs1 := s.calls, mss, mcs;
      r, coreOut, hasMcsOut, unrefuted := ProcessCore(1, c, h, moreBucketsFollow);
      forall x | x in mcs && x !in mcs0 && x !in unrefuted
        ensures Refuted(s.check, x, calls0, s.calls, mss)
      {
        if x in mcs1 {
          RefutedWiden(s.check, x, calls0, calls1, mss1, calls0, s.calls, mss);
        } else {
          RefutedWiden(s.check, x, calls1, s.calls, mss, calls0, s.calls, mss);
        }
      }
    }

    /** Moving the first literal of a bucket into the correction set by
        swap-with-back-and-pop. */
    method ExcludeFirst(core: seq<Lit>) returns (c: seq<Lit>)
      requires core != []
      modifies this`mcs
      ensures mcs == old(mcs) + {core[0]}
      ensures c == RemoveFirst(core)
    {
      mcs := mcs + {core[0]};
      c := core[0 := core[|core| - 1]];
      c := c[..|c| - 1];
    }

    /** The debug check: no MSS literal evaluates to false under the live model.
        The result is the verdict of the assertion the source makes per literal. */
    method CheckInvariant() returns (ok: bool)
      ensures ok <==> forall i :: 0 <= i < |mss| ==> !IsFalse(model, mss[i])
    {
      ok := true;
      var i := 0;
      while i < |mss|
        invariant 0 <= i <= |mss|
        invariant ok <==> forall k :: 0 <= k < i ==> !IsFalse(model, mss[k])
      {
        if IsFalse(model, mss[i]) {
          ok := false;
        }
        i := i + 1;
      }
    }

    /** One round of the extraction loop: the invariant check, skimming the
        bucket against the live model, and core resolution with chunk 1 and no
        literal of the bucket in the correction set yet. */
    method ResolveBucket(bucket: seq<Lit>, moreBucketsFollow: bool) returns (r: LBool, ghost spared: set<Lit>)
      requires Valid()
      modifies this`mss, this`mcs, this`model, s
      ensures Valid()
      ensures r != LFalse
      ensures old(mss) <= mss && old(mcs) <= mcs
      ensures forall x :: x in mss && x !in old(mss) ==> x in bucket
      ensures forall x :: x in mcs && x !in old(mcs) ==> x in bucket
      ensures r == LTrue ==> forall x :: x in bucket ==> x in mss || x in mcs
      ensures NoDups(bucket) && Disjoint(old(mss), old(mcs)) ==> Disjoint(mss, mcs)
      ensures s.calls >= old(s.calls)
      // Every literal corrected was refuted, except at most one of the bucket, and
      // that only while more buckets follow.
      ensures |spared| <= 1 && forall x :: x in spared ==> x in bucket
      ensures spared != {} ==> moreBucketsFollow
      ensures forall x :: x in mcs && x !in old(mcs) && x !in spared ==>
        Refuted(s.check, x, old(s.calls), s.calls, mss)
    {
      var hasMcs := false;
      AllTrueNoneFalse(model, mss);
      var ok := CheckInvariant();
      assert ok;
      ghost var mcsBefore, skimModel := mcs, model;
      MovedKeepsTrue(bucket, mss, mcs, model);
      if NoDups(bucket) && Disjoint(mss, mcs) {
        SkimKeepsUnclassified(bucket, mss, mcs, model);
      }
      var core := UpdateSet(bucket);
      ghost var mssSkimmed := mss;
      var coreOut;
      r, coreOut, hasMcs, spared := ProcessCore(1, core, hasMcs, moreBucketsFollow);
      forall x | x in bucket
        ensures r == LTrue ==> x in mss || x in mcs
      {
        SkimCovers(bucket, mcsBefore, skimModel, x);
        assert x in mssSkimmed ==> x in mss;
      }
      forall x | (x in mss && x !in old(mss)) || (x in mcs && x !in old(mcs)) || x in spared
        ensures x in bucket
      {
        KeptMembers(bucket, mcsBefore, skimModel, x);
        MovedMembers(bucket, mcsBefore, skimModel, x);
      }
    }

    /** The loop of the extraction: the buckets are resolved in order while every
        one so far has succeeded; the flag `moreBucketsFollow` is computed from
        the position. `processed` counts the buckets resolved: all of them on
        success, and otherwise up to the first one that did not succeed, after
        which no bucket is touched. */
    method ResolveBuckets(buckets: seq<seq<Lit>>) returns (isSat: LBool, ghost processed: nat, ghost spared: seq<set<Lit>>)
      requires Valid()
      modifies this`mss, this`mcs, this`model, s
      ensures Valid()
      ensures isSat != LFalse
      ensures old(mss) <= mss && old(mcs) <= mcs
      ensures processed <= |buckets|
      ensures isSat == LTrue ==> processed == |buckets|
      ensures isSat != LTrue ==> processed > 0
      ensures forall x :: x in mss && x !in old(mss) ==> exists k :: 0 <= k < processed && x in buckets[k]
      ensures forall x :: x in mcs && x !in old(mcs) ==> exists k :: 0 <= k < processed && x in buckets[k]
      ensures isSat == LTrue ==> forall k, x :: 0 <= k < |buckets| && x in buckets[k] ==> x in mss || x in mcs
      // Only the last bucket processed failed: every one before it was resolved.
      ensures isSat != LTrue ==> forall k, x :: 0 <= k < processed - 1 && x in buckets[k] ==> x in mss || x in mcs
      ensures (forall k :: 0 <= k < |buckets| ==> NoDups(buckets[k])) && Disjoint(old(mss), old(mcs)) ==>
        Disjoint(mss, mcs)
      // Every literal corrected was refuted, except at most one per bucket, none of
      // them from the last bucket.
      ensures |spared| == processed
      ensures forall k :: 0 <= k < processed ==> |spared[k]| <= 1
      ensures forall k, x :: 0 <= k < processed && x in spared[k] ==> x in buckets[k]
      ensures forall k :: 0 <= k < processed && k == |buckets| - 1 ==> spared[k] == {}
      ensures forall x :: x in mcs && x !in old(mcs) && (forall k :: 0 <= k < processed ==> x !in spared[k]) ==>
        Refuted(s.check, x, old(s.calls), s.calls, mss)
    {
      ghost var distinct := (forall k :: 0 <= k < |buckets| ==> NoDups(buckets[k])) && Disjoint(mss, mcs);
      isSat := LTrue;
      spared := [];
      var i := 0;
      while isSat == LTrue && i < |buckets|
        invariant 0 <= i <= |buckets|
        invariant Valid()
        invariant isSat != LFalse
        invariant isSat != LTrue ==> i > 0
        invariant old(mss) <= mss && old(mcs) <= mcs
        invariant forall x :: x in mss && x !in old(mss) ==> exists k :: 0 <= k < i && x in buckets[k]
        invariant forall x :: x in mcs && x !in old(mcs) ==> exists k :: 0 <= k < i && x in buckets[k]
        invariant isSat == LTrue ==> forall k, x :: 0 <= k < i && x in buckets[k] ==> x in mss || x in mcs
        invariant isSat != LTrue ==> forall k, x :: 0 <= k < i - 1 && x in buckets[k] ==> x in mss || x in mcs
        invariant distinct ==> Disjoint(mss, mcs)
        invariant old(s.calls) <= s.calls
        invariant |spared| == i
        invariant forall k :: 0 <= k < i ==> |spared[k]| <= 1
        invariant forall k, x :: 0 <= k < i && x in spared[k] ==> x in buckets[k]
        invariant forall k :: 0 <= k < i && k == |buckets| - 1 ==> spared[k] == {}
        invariant forall x :: x in mcs && x !in old(mcs) && (forall k :: 0 <= k < i ==> x !in spared[k]) ==>
          Refuted(s.check, x, old(s.calls), s.calls, mss)
      {
        var moreBucketsFollow := i + 1 < |buckets|;
        ghost var mssBefore, mcsBefore, callsBefore, sparedBefore := mss, mcs, s.calls, spared;
        ghost var sp;
        isSat, sp := ResolveBucket(buckets[i], moreBucketsFollow);
        spared := spared + [sp];
        assert forall k :: 0 <= k < i ==> spared[k] == sparedBefore[k];
        RefutedThroughBucket(s.check, old(mcs), mcsBefore, mcs, mssBefore, mss, old(s.calls), callsBefore, s.calls,
                             sparedBefore, sp, spared);
        forall k, x | 0 <= k <= i && x in buckets[k]
          ensures k < i || isSat == LTrue ==> x in mss || x in mcs
        {
          if k < i && x in mssBefore {
            assert mss == mssBefore + mss[|mssBefore|..];
          }
        }
        forall x | (x in mss && x !in old(mss)) || (x in mcs && x !in old(mcs))
          ensures exists k :: 0 <= k < i + 1 && x in buckets[k]
        {
          if (x in mss && x !in mssBefore) || (x in mcs && x !in mcsBefore) {
            assert x in buckets[i];
          } else if x in mss && x !in old(mss) {
            assert x in mssBefore;
          }
        }
        i := i + 1;
      }
      processed := i;
    }

    /** The extraction (`operator()`): resets the MSS and the correction set, takes
        the solver's model, buckets the literals, then skims and resolves the
        buckets in order until one does not succeed. Only on success is the pool
        overwritten with the MSS. */
    method Run(cores: seq<seq<Lit>>, literals: seq<Lit>)
      returns (res: Result<LBool>, litsOut: seq<Lit>, ghost spared: seq<set<Lit>>)
      requires s.Sound()
      modifies this`mss, this`mcs, this`model, s
      ensures res.Failure? <==> !AllLiterals(terms, literals)
      ensures res.Failure? ==>
        res.error == InvalidArgumentMessage && mss == [] && mcs == {} && s.calls == old(s.calls)
      ensures res.Success? ==> res.value != LFalse
      ensures litsOut == if res == Success(LTrue) then mss else literals
      ensures res == Success(LTrue) ==> Valid()
      ensures forall x :: x in mss || x in mcs ==> x in literals || InSomeCore(cores, x)
      // Every literal corrected was refuted by the oracle, except at most one per core.
      ensures |spared| <= |cores|
      ensures forall k :: 0 <= k < |spared| ==> |spared[k]| <= 1
      ensures forall k, x :: 0 <= k < |spared| && x in spared[k] ==> x in cores[k]
      ensures forall x :: x in mcs && (forall k :: 0 <= k < |spared| ==> x !in spared[k]) ==>
        Refuted(s.check, x, old(s.calls), s.calls, mss)
      ensures forall x :: x in mcs ==> InSomeCore(cores, x) || Refuted(s.check, x, old(s.calls), s.calls, mss)
      ensures res == Success(LTrue) ==> forall x :: x in literals ==> x in mss || x in mcs
      ensures res == Success(LTrue) ==>
        forall k, x :: 0 <= k < |cores| && x in cores[k] ==> x in mss || x in mcs
      ensures res == Success(LTrue) && (forall k :: 0 <= k < |cores| ==> NoDups(cores[k])) ==>
        Disjoint(mss, mcs)
    {
      mss := [];
      mcs := {};
      var m := s.GetModel();
      model := m;
      var init := Initialize(cores, literals);
      if init.Failure? {
        return Failure(init.error), literals, [];
      }
      var buckets := init.value;
      ghost var mss0 := mss;
      assert AllTrue(m, mss0) && forall x :: x in mss0 ==> InSomeCore(cores, x) || x in literals by {
        assert mss0[0..] == mss0;
      }
      ghost var distinct := forall k :: 0 <= k < |cores| ==> NoDups(cores[k]);
      if distinct {
        assert forall k :: 0 <= k < |buckets| ==> NoDups(buckets[k]);
      }
      assert Disjoint(mss, mcs);
      var isSat, processed, sp := ResolveBuckets(buckets);
      assert distinct ==> Disjoint(mss, mcs);
      ClassifiedFromPool(cores, literals, buckets, processed, mss0, mss, mcs);
      // The last bucket spares nothing, so only the cores' entries are kept.
      spared := if |sp| > |cores| then sp[..|cores|] else sp;
      SparedCoresOnly(cores, buckets, sp, spared, s.check, {}, mcs, old(s.calls), s.calls, mss);
      if isSat == LTrue {
        AllTrueNoneFalse(model, mss);
        var ok := CheckInvariant();
        assert ok;
        litsOut := mss;
        assert forall x :: x in mss0 ==> x in mss;
        BucketsCoverPool(cores, literals, m, buckets, mss, mcs);
      } else {
        litsOut := literals;
      }
      res := Success(isSat);
    }

    /** The debug re-check of the result: the MSS must be satisfiable, and the MSS
        with any one literal of the correction set added must not be. An unknown
        answer passes. The correction set is walked in an unspecified order;
        `tried` records the literals asked about, in the order asked. */
    method CheckResult() returns (ok: bool, ghost tried: seq<Lit>)
      modifies this`mss, s
      ensures mss == old(mss)
      ensures s.calls == old(s.calls) + 1 + |tried|
      ensures NoDups(tried) && forall x :: x in tried ==> x in mcs
      ensures s.check(old(s.calls), mss) != LTrue ==> tried == []
      ensures forall k :: 0 <= k < |tried| - 1 ==> s.check(old(s.calls) + 1 + k, mss + [tried[k]]) == LFalse
      ensures !ok <==>
        s.check(old(s.calls), mss) == LFalse ||
        (tried != [] && s.check(old(s.calls) + |tried|, mss + [tried[|tried| - 1]]) == LTrue)
      ensures (ok && s.check(old(s.calls), mss) == LTrue &&
        (tried == [] || s.check(old(s.calls) + |tried|, mss + [tried[|tried| - 1]]) == LFalse)) ==>
        forall x :: x in mcs ==> x in tried
    {
      ghost var c0 := s.calls;
      tried := [];
      var isSat := s.CheckSat(mss);
      if isSat == LUndef {
        return true, tried;
      }
      if isSat == LFalse {
        return false, tried;
      }
      ok, tried := CheckEachCorrection();
    }

    /** The loop of that re-check: each literal of the correction set in turn is
        added to the MSS and the oracle asked; an unknown answer ends the walk
        with success, a satisfiable one with failure. */
    method CheckEachCorrection() returns (ok: bool, ghost tried: seq<Lit>)
      modifies this`mss, s
      ensures mss == old(mss)
      ensures s.calls == old(s.calls) + |tried|
      ensures NoDups(tried) && forall x :: x in tried ==> x in mcs
      ensures forall k :: 0 <= k < |tried| - 1 ==> s.check(old(s.calls) + k, mss + [tried[k]]) == LFalse
      ensures !ok <==> tried != [] && s.check(old(s.calls) + |tried| - 1, mss + [tried[|tried| - 1]]) == LTrue
      ensures (tried == [] || s.check(old(s.calls) + |tried| - 1, mss + [tried[|tried| - 1]]) == LFalse) ==>
        forall x :: x in mcs ==> x in tried
    {
      ghost var c0 := s.calls;
      tried := [];
      var todo := mcs;
      while todo != {}
        invariant todo <= mcs
        invariant mss == old(mss)
        invariant s.calls == c0 + |tried|
        invariant NoDups(tried)
        invariant forall x :: x in tried ==> x in mcs && x !in todo
        invariant forall x :: x in mcs ==> x in todo || x in tried
        invariant forall k :: 0 <= k < |tried| ==> s.check(c0 + k, mss + [tried[k]]) == LFalse
        decreases todo
      {
        NonEmptyHasMember(todo);
        var x :| x in todo;
        todo := todo - {x};
        var isSat := CheckChunk([x]);
        NoDupsSnoc(tried, x);
        tried := tried + [x];
        if isSat == LUndef {
          return true, tried;
        }
        if isSat == LTrue {
          return false, tried;
        }
      }
      return true, tried;
    }
  }
}

=== FILE: skim.dfy ===
/** What skimming a bucket against the correction set and the live model does:
    the literals that stay in the bucket and the ones committed to the MSS. */
module Skim {
  import opened Logic

  /** A bucket literal stays when it is not yet in the correction set and the
      model does not already make it true. */
  predicate Stays(mcs: set<Lit>, model: Model, l: Lit) {
    l !in mcs && !IsTrue(model, l)
  }

  /** A bucket literal is committed to the MSS when it is not in the correction
      set and the model makes it true. */
  predicate Moves(mcs: set<Lit>, model: Model, l: Lit) {
    l !in mcs && IsTrue(model, l)
  }

  /** The literals of `lits` that stay, in their order. */
  function Kept(lits: seq<Lit>, mcs: set<Lit>, model: Model): (r: seq<Lit>)
    ensures |r| <= |lits|
  {
    if lits == [] then []
    else
      var last := lits[|lits| - 1];
      Kept(lits[..|lits| - 1], mcs, model) + (if Stays(mcs, model, last) then [last] else [])
  }

  /** The literals of `lits` committed to the MSS, in their order. */
  function Moved(lits: seq<Lit>, mcs: set<Lit>, model: Model): (r: seq<Lit>)
    ensures |r| <= |lits|
  {
    if lits == [] then []
    else
      var last := lits[|lits| - 1];
      Moved(lits[..|lits| - 1], mcs, model) + (if Moves(mcs, model, last) then [last] else [])
  }

  // One more literal at the end of the bucket: the unfoldings the in-place
  // skimming loop steps through.

  lemma KeptSnoc(lits: seq<Lit>, x: Lit, mcs: set<Lit>, model: Model)
    ensures Kept(lits + [x], mcs, model) == Kept(lits, mcs, model) + (if Stays(mcs, model, x) then [x] else [])
  {
    assert (lits + [x])[..|lits|] == lits;
  }

  lemma MovedSnoc(lits: seq<Lit>, x: Lit, mcs: set<Lit>, model: Model)
    ensures Moved(lits + [x], mcs, model) == Moved(lits, mcs, model) + (if Moves(mcs, model, x) then [x] else [])
  {
    assert (lits + [x])[..|lits|] == lits;
  }

  /** One step of skimming in place: `buf` holds the survivors of the first `i`
      literals at its front and the unscanned literals from position `i` on. A
      literal that stays is written to position `j` (a no-op when `j == i`); one
      that does not leaves `buf` as it is; and it is committed exactly when it
      moves. */
  lemma CompactStep(lits: seq<Lit>, buf: seq<Lit>, i: nat, j: nat, mcs: set<Lit>, model: Model)
    requires |buf| == |lits| && j <= i < |lits|
    requires buf[..j] == Kept(lits[..i], mcs, model) && buf[i..] == lits[i..]
    ensures buf[i] == lits[i]
    ensures Stays(mcs, model, lits[i]) ==>
      buf[j := lits[i]][..j + 1] == Kept(lits[..i + 1], mcs, model) &&
      buf[j := lits[i]][i + 1..] == lits[i + 1..] &&
      (j == i ==> buf[j := lits[i]] == buf)
    ensures !Stays(mcs, model, lits[i]) ==>
      buf[..j] == Kept(lits[..i + 1], mcs, model) && buf[i + 1..] == lits[i + 1..]
    ensures Moves(mcs, model, lits[i]) ==> Moved(lits[..i + 1], mcs, model) == Moved(lits[..i], mcs, model) + [lits[i]]
    ensures !Moves(mcs, model, lits[i]) ==> Moved(lits[..i + 1], mcs, model) == Moved(lits[..i], mcs, model)
  {
    var n := lits[i];
    assert buf[i] == buf[i..][0];
    assert lits[..i + 1] == lits[..i] + [n];
    KeptSnoc(lits[..i], n, mcs, model);
    MovedSnoc(lits[..i], n, mcs, model);
    assert buf[i + 1..] == buf[i..][1..];
    assert lits[i + 1..] == lits[i..][1..];
    if Stays(mcs, model, n) {
      var b := buf[j := n];
      assert b[..j + 1] == buf[..j] + [n];
      assert b[i + 1..] == buf[i + 1..];
    }
  }

  /** A literal survives skimming exactly when it is in the bucket and stays. */
  lemma {:induction false} KeptMembers(lits: seq<Lit>, mcs: set<Lit>, model: Model, x: Lit)
    ensures x in Kept(lits, mcs, model) <==> x in lits && Stays(mcs, model, x)
  {
    if lits != [] {
      var init := lits[..|lits| - 1];
      KeptMembers(init, mcs, model, x);
      assert lits == init + [lits[|lits| - 1]];
    }
  }

  /** A literal is committed exactly when it is in the bucket and moves. */
  lemma {:induction false} MovedMembers(lits: seq<Lit>, mcs: set<Lit>, model: Model, x: Lit)
    ensures x in Moved(lits, mcs, model) <==> x in lits && Moves(mcs, model, x)
  {
    if lits != [] {
      var init := lits[..|lits| - 1];
      MovedMembers(init, mcs, model, x);
      assert lits == init + [lits[|lits| - 1]];
    }
  }

  /** Skimming loses nothing: every bucket literal is already in the correction
      set, committed to the MSS, or still in the bucket. */
  lemma SkimCovers(lits: seq<Lit>, mcs: set<Lit>, model: Model, x: Lit)
    requires x in lits
    ensures x in mcs || x in Moved(lits, mcs, model) || x in Kept(lits, mcs, model)
  {
    KeptMembers(lits, mcs, model, x);
    MovedMembers(lits, mcs, model, x);
  }

  /** Committing the literals skimming moves keeps a sequence true under the
      model it was skimmed against. */
  lemma MovedKeepsTrue(lits: seq<Lit>, mss: seq<Lit>, mcs: set<Lit>, model: Model)
    requires AllTrue(model, mss)
    ensures AllTrue(model, mss + Moved(lits, mcs, model))
  {
    forall l | l in mss + Moved(lits, mcs, model) ensures IsTrue(model, l) {
      MovedMembers(lits, mcs, model, l);
    }
  }

  /** Skimming only splits the bucket: the survivors and the committed literals
      together are a sub-multiset of the bucket. */
  lemma {:induction false} SkimSplits(lits: seq<Lit>, mcs: set<Lit>, model: Model)
    ensures multiset(Kept(lits, mcs, model)) + multiset(Moved(lits, mcs, model)) <= multiset(lits)
  {
    if lits != [] {
      var init := lits[..|lits| - 1];
      SkimSplits(init, mcs, model);
      assert lits == init + [lits[|lits| - 1]];
    }
  }

  /** The survivors keep their relative order. */
  lemma {:induction false} KeptInOrder(lits: seq<Lit>, mcs: set<Lit>, model: Model)
    ensures Subseq(Kept(lits, mcs, model), lits)
  {
    if lits != [] {
      var init := lits[..|lits| - 1];
      var last := lits[|lits| - 1];
      KeptInOrder(init, mcs, model);
      var k := Kept(lits, mcs, model);
      if Stays(mcs, model, last) {
        assert k[..|k| - 1] == Kept(init, mcs, model);
      } else {
        assert k == Kept(init, mcs, model);
      }
    }
  }

  /** A bucket without repeated literals keeps none after skimming. */
  lemma KeptNoDups(lits: seq<Lit>, mcs: set<Lit>, model: Model)
    requires NoDups(lits)
    ensures NoDups(Kept(lits, mcs, model))
  {
    SkimSplits(lits, mcs, model);
    forall x ensures multiset(Kept(lits, mcs, model))[x] <= 1 {
      assert multiset(Kept(lits, mcs, model))[x] <= multiset(lits)[x];
    }
  }

  /** Skimming twice against the same correction set and model changes nothing. */
  lemma {:induction false} KeptIdempotent(lits: seq<Lit>, mcs: set<Lit>, model: Model)
    ensures Kept(Kept(lits, mcs, model), mcs, model) == Kept(lits, mcs, model)
  {
    if lits != [] {
      var init := lits[..|lits| - 1];
      var last := lits[|lits| - 1];
      var k0 := Kept(init, mcs, model);
      KeptIdempotent(init, mcs, model);
      if Stays(mcs, model, last) {
        var k := k0 + [last];
        assert Kept(lits, mcs, model) == k;
        assert k[..|k| - 1] == k0;
        assert Kept(k, mcs, model) == Kept(k0, mcs, model) + [last];
      } else {
        assert Kept(lits, mcs, model) == k0;
      }
    }
  }

  /** When the model makes the first `n` literals true, skimming removes at least
      those `n`: the bucket shrinks by at least `n`. */
  lemma {:induction false} KeptDropsTruePrefix(lits: seq<Lit>, mcs: set<Lit>, model: Model, n: nat)
    requires n <= |lits|
    requires AllTrue(model, lits[..n])
    ensures |Kept(lits, mcs, model)| <= |lits| - n
  {
    if lits != [] {
      var init := lits[..|lits| - 1];
      if n == |lits| {
        assert init[..n - 1] == lits[..n - 1];
        assert lits[|lits| - 1] in lits[..n];
        KeptDropsTruePrefix(init, mcs, model, n - 1);
      } else {
        assert init[..n] == lits[..n];
        KeptDropsTruePrefix(init, mcs, model, n);
      }
    }
  }
}

=== FILE: solver.dfy ===
/** The satisfiability oracle the extractor consults. Its decisions are external:
    `check` and `modelAfter` are whatever the solving engine answers at its n-th
    call on an assumption list, and the only thing the extractor relies on is
    `Sound`: a model obtained after a satisfiable answer makes every assumed
    literal true. */
module Oracle {
  import opened Logic

  /** A literal is true in `model` for every literal assumed in `asms`. */
  predicate Satisfies(model: Model, asms: seq<Lit>) {
    forall l :: l in asms ==> IsTrue(model, l)
  }

  class Solver {
    /** The answer of the n-th check on an assumption list. */
    const check: (nat, seq<Lit>) -> LBool
    /** The model the solver holds after the n-th check, when that check was satisfiable. */
    const modelAfter: (nat, seq<Lit>) -> Model
    /** How many checks have been made so far. */
    var calls: nat
    /** The model of the most recent satisfiable state. */
    var model: Model

    ghost predicate Sound() {
      forall n: nat, asms: seq<Lit> {:trigger modelAfter(n, asms)} ::
        check(n, asms) == LTrue ==> Satisfies(modelAfter(n, asms), asms)
    }

    constructor (check: (nat, seq<Lit>) -> LBool, modelAfter: (nat, seq<Lit>) -> Model, current: Model)
      ensures this.check == check && this.modelAfter == modelAfter
      ensures calls == 0 && model == current
    {
      this.check := check;
      this.modelAfter := modelAfter;
      calls := 0;
      model := current;
    }

    /** `check_sat` under the assumptions `asms`. */
    method CheckSat(asms: seq<Lit>) returns (r: LBool)
      modifies this
      ensures r == check(old(calls), asms)
      ensures calls == old(calls) + 1
      ensures model == if r == LTrue then modelAfter(old(calls), asms) else old(model)
    {
      r := check(calls, asms);
      if r == LTrue {
        model := modelAfter(calls, asms);
      }
      calls := calls + 1;
    }

    /** `get_model`: the model of the most recent satisfiable state. */
    method GetModel() returns (m: Model)
      ensures m == model
    {
      m := model;
    }
  }
}
